=== FILE: README.md ===
# GraphService request handling, modelled in Dafny

This project models the request-handling core of a small C# library for
Microsoft Graph:

- `HttpService.GetResponseAsync` merges the caller's headers into the HTTP
  client's default headers. It sends the request, reads the body and
  classifies the response. The outcomes are fail, retry after a sleep,
  return the body, or return the serialised response object (202 and 204).
  A 200 `$batch` reply with a 429 sub-response counts as throttled. Its
  delay is the largest `Retry-After` of the throttled sub-responses, or
  5000 when none is positive, multiplied by 1000 in 32-bit arithmetic.
- `GraphService` covers several operations:
  - it builds the bearer `Authorization` header, choosing the debug token
    when a debugger is attached;
  - it pages through `@odata.nextLink`;
  - it batches urls into `$batch` envelopes of at most 20 sub-requests,
    numbered from "1";
  - it unpacks the sub-response bodies;
  - `GetGroups` is built on batching.

Files:

- `wrappers.dfy` holds `Option` and `Result`.
- `numbers.dfy` holds the .NET integer conventions:
  - unchecked 32-bit wrap-around;
  - `Int32.ToString()`;
  - `int.TryParse` with the default number style, which also skips NUL
    characters at the very end of the text.
- `json.dfy` holds the JSON tree, child tokens, string indexing,
  `ToString()`, and the exceptions the library can raise (`Fault`).
- `http_service.dfy` models `GetResponseAsync` and its helpers.
  - `Classify` is the one-step decision for one response.
  - `Attempts`/`Send` run that decision over a finite script of responses.
    Each run yields the requests sent, the sleeps, and the outcome.
- `graph_service.dfy` models `GraphService`. Every `GetResponseAsync` call is
  answered by the next entry of a script of replies or exceptions. Each run
  yields the calls made, in order, and how it ended.

Network I/O, the sleep and the identity provider are parameters. Every
recursion is bounded by its script. When the script runs out, the request
sent last is recorded unanswered and the outcome is `OutOfResponses` /
`OutOfReplies`.

## Quirks of the code the model keeps

- A non-2xx status makes `ReadResponseBody` throw before the retry test
  runs. So 429, 502 and 504 are never retried. A retry happens only for a
  throttled 200 batch reply.
- Checking the batch shape does not quietly answer "not throttled" for
  every other body:
  - `First` on an empty object or array is `null`, so reading `.Path` throws;
  - `First` on a scalar body throws.
- The `try` in `GetThrottledResponses` only wraps building a deferred `Where`
  query. A sub-response that is not an object throws later, during `Any()` or
  `ToList()`, and the call fails.
- A throttled sub-response whose `headers` or `Retry-After` is missing
  makes `.ToString()` on `null` throw. A `headers` that is not an object
  makes the indexer throw. A value that is not an integer makes
  `int.Parse` throw. There is no fallback to the default delay in any of
  these cases.
- A page without `value` returns the reply itself, as the whole result. It
  is not wrapped as a single element, and earlier pages are dropped.
- A sub-response whose `body` is JSON `null` is kept. Only a missing `body`
  is skipped.
- The request content is built for every method whenever a body is given,
  so a content type that is not a media type throws even for GET and
  DELETE, before anything is sent.

## Model

| member | source | states |
|---|---|---|
| Numbers.Wrap32 | ClassLibrary.GraphService/ClassLibrary.GraphService/HttpService.cs:84 | The wrapped product is a 32-bit value congruent to the exact one modulo 2^32, and equal to it when it fits. |
| Numbers.WrappedThousandsNeverMinusOne | ClassLibrary.GraphService/ClassLibrary.GraphService/HttpService.cs:84-85 | Seconds times 1000 in 32-bit arithmetic is never -1, the value `Thread.Sleep` reads as "wait forever". |
| Numbers.DecimalString | ClassLibrary.GraphService/ClassLibrary.GraphService/GraphService.cs:70 | The id text is non-empty decimal digits that denote the number, with no leading zero. |
| Numbers.ParseIgnoresTrailingNuls | ClassLibrary.GraphService/ClassLibrary.GraphService/HttpService.cs:116-127 | NUL characters appended to any text do not change how `int.Parse` / `int.TryParse` read it, so "429" followed by NULs is still a 429. |
| Numbers.NulPaddedText | ClassLibrary.GraphService/ClassLibrary.GraphService/HttpService.cs:116-127 | A printed 32-bit integer followed by any number of NULs parses back as that integer, and one out of range does not parse. |
| Numbers.ParseIntText | ClassLibrary.GraphService/ClassLibrary.GraphService/HttpService.cs:116 | Parsing a printed integer gives it back exactly when it fits in 32 bits, and fails otherwise. |
| Json.LookupFirst | ClassLibrary.GraphService/ClassLibrary.GraphService/HttpService.cs:127 | A key lookup misses iff no property has the name; otherwise it answers with the first such property's value. |
| Json.Index | ClassLibrary.GraphService/ClassLibrary.GraphService/HttpService.cs:127 | String indexing succeeds exactly on objects and gives the property's value; it throws on arrays and scalars. |
| Json.Children | ClassLibrary.GraphService/ClassLibrary.GraphService/GraphService.cs:50 | An array enumerates its elements, an object its properties, both in order; a scalar has no children. |
| Json.IntOfText | ClassLibrary.GraphService/ClassLibrary.GraphService/HttpService.cs:127 | Reading any token as an integer gives the same answer as parsing its printed text. |
| Json.IntOfNumber | ClassLibrary.GraphService/ClassLibrary.GraphService/HttpService.cs:116 | A JSON string that spells a number reads as the same integer as the number itself. |
| HttpService.MergeHeadersSpec | ClassLibrary.GraphService/ClassLibrary.GraphService/HttpService.cs:26-43 | After the merge each supplied name holds the values of its last occurrence, other defaults are unchanged, and no other name appears. |
| HttpService.MergeIdempotent | ClassLibrary.GraphService/ClassLibrary.GraphService/HttpService.cs:26-43 | Merging the same headers a second time changes nothing, so a retry sends the same headers. |
| HttpService.WireOf | ClassLibrary.GraphService/ClassLibrary.GraphService/HttpService.cs:45-68 | GET and DELETE carry no content; POST, PUT and PATCH carry the body exactly when one is given, typed as the given content type, or `application/json` when none is given. |
| HttpService.MediaTypeShape | ClassLibrary.GraphService/ClassLibrary.GraphService/HttpService.cs:45 | An accepted content type holds exactly one slash and no space or tab, so "application /json" makes the call throw. |
| HttpService.SpacedMediaTypeRejected | ClassLibrary.GraphService/ClassLibrary.GraphService/HttpService.cs:45 | A POST with a body and content type "application /json" throws before any request goes out. |
| HttpService.DefaultContentTypeAccepted | ClassLibrary.GraphService/ClassLibrary.GraphService/HttpService.cs:45 | A request without a content type always gets its content built; a body with an empty content type always makes the call throw. |
| HttpService.ReadResponseBody | ClassLibrary.GraphService/ClassLibrary.GraphService/HttpService.cs:138-155 | Reading succeeds iff the status is 2xx, giving the parsed JSON or else the raw text; any other status throws with the response text. |
| HttpService.ContentIsJson | ClassLibrary.GraphService/ClassLibrary.GraphService/HttpService.cs:100-103 | The test throws when the content type is missing; otherwise it is true iff the media type is `application/json`. |
| HttpService.BatchCandidates | ClassLibrary.GraphService/ClassLibrary.GraphService/HttpService.cs:121-136 | Sub-responses are found only under a first property named `responses`. |
| HttpService.RetryAfterFaults | ClassLibrary.GraphService/ClassLibrary.GraphService/HttpService.cs:116 | A missing `headers` or `Retry-After` throws NullReference, a non-object sub-response or `headers` throws from the indexer, and a present value gives its integer or throws from `int.Parse`. |
| HttpService.RetryAfters | ClassLibrary.GraphService/ClassLibrary.GraphService/HttpService.cs:116 | The `Max` selector succeeds iff every throttled sub-response has a readable `Retry-After`, and then gives those values in order. |
| HttpService.BatchRetryAfter | ClassLibrary.GraphService/ClassLibrary.GraphService/HttpService.cs:116-118 | The delay is positive and at least every value. It is one of the values when any is positive, and 5000 when none is. |
| HttpService.BatchFailedCheck | ClassLibrary.GraphService/ClassLibrary.GraphService/HttpService.cs:75 | Only a 200 JSON reply can be batch-throttled. A 200 reply with no content type throws; one with another type is not throttled. |
| HttpService.BatchRetry | ClassLibrary.GraphService/ClassLibrary.GraphService/HttpService.cs:81-86 | The throttled branch either throws or sleeps for a non-negative number of milliseconds, never for "forever". |
| HttpService.Classify | ClassLibrary.GraphService/ClassLibrary.GraphService/HttpService.cs:70-97 | Non-2xx fails with the response text. 202 and 204 give the placeholder. A retry needs a 200 JSON reply and a non-negative sleep. Other 2xx, and 200 of another type, return the body. |
| HttpService.Attempts | ClassLibrary.GraphService/ClassLibrary.GraphService/HttpService.cs:45-89 | A content type that is not a media type throws before any request is sent. Otherwise at least one request goes out, each response answers one request, and at most one request is left unanswered. |
| HttpService.AttemptsRepeatRequest | ClassLibrary.GraphService/ClassLibrary.GraphService/HttpService.cs:88 | Every attempt sends the identical url, method, headers, body and content type. |
| HttpService.AttemptsStopAtFirstSettled | ClassLibrary.GraphService/ClassLibrary.GraphService/HttpService.cs:79-97 | Every response but the last one read was a retry. The last is the first non-retry, and its decision is the outcome. Running out means every response said retry and one request more than there were responses went out. |
| HttpService.AttemptsSleeps | ClassLibrary.GraphService/ClassLibrary.GraphService/HttpService.cs:81-86 | The sleeps are exactly those the retried responses asked for, in order. |
| HttpService.SendNeverRetriesGatewayErrors | ClassLibrary.GraphService/ClassLibrary.GraphService/HttpService.cs:73-79 | A 502 or 504 sends one request and throws with the response text; a rejected content type sends none. |
| HttpService.IsThrottledObject | ClassLibrary.GraphService/ClassLibrary.GraphService/HttpService.cs:127 | On an object sub-response the filter succeeds, and is true iff its `status` reads as 429. Its `Retry-After` parses iff it has an integer one. |
| HttpService.AnyThrottledSpec | ClassLibrary.GraphService/ClassLibrary.GraphService/HttpService.cs:105-110 | Over object sub-responses, `BatchFailed` answers whether some sub-response has status 429. |
| HttpService.ThrottledListSpec | ClassLibrary.GraphService/ClassLibrary.GraphService/HttpService.cs:114 | Over object sub-responses, the filtered list holds exactly the 429 sub-responses. |
| HttpService.MalformedSubResponseThrows | ClassLibrary.GraphService/ClassLibrary.GraphService/HttpService.cs:125-132 | A sub-response that is not an object makes `ToList()` throw, and `Any()` throws unless it met a 429 first. |
| HttpService.DelayFromValues | ClassLibrary.GraphService/ClassLibrary.GraphService/HttpService.cs:116-118 | The max/default value over the 429s' `Retry-After` values is the batch delay of the sub-responses. |
| HttpService.GetBatchRetryAfterSpec | ClassLibrary.GraphService/ClassLibrary.GraphService/HttpService.cs:112-119 | For a throttled batch, the delay is the largest positive `Retry-After` of a 429, or else 5000. |
| HttpService.ClassifyRetryOnlyIfThrottled | ClassLibrary.GraphService/ClassLibrary.GraphService/HttpService.cs:75-79 | A retry implies a 200 JSON batch reply with object sub-responses, at least one 429, and an integer `Retry-After` on every 429. |
| HttpService.ClassifyThrottledRetries | ClassLibrary.GraphService/ClassLibrary.GraphService/HttpService.cs:75-88 | Such a reply is retried after the batch delay times 1000 (32-bit), or throws when that wraps negative. |
| HttpService.ClassifyMalformedBatchFails | ClassLibrary.GraphService/ClassLibrary.GraphService/HttpService.cs:121-136 | A batch reply with a sub-response that is not an object makes the call throw instead of being treated as not throttled. |
| HttpService.ClassifyMissingRetryAfterFails | ClassLibrary.GraphService/ClassLibrary.GraphService/HttpService.cs:116 | A 429 sub-response without an integer `Retry-After` makes the call throw. |
| HttpService.ClassifyNonBatchBody | ClassLibrary.GraphService/ClassLibrary.GraphService/HttpService.cs:123-135 | A non-batch 200 JSON body with a first child is returned; an empty object or array throws NullReference, and a scalar throws. |
| GraphService.AccessToken | ClassLibrary.GraphService/ClassLibrary.GraphService/GraphService.cs:34 | The token is the debug token when a debugger is attached and one was given; otherwise it is the provider's answer. |
| GraphService.GetHeadersCarryToken | ClassLibrary.GraphService/ClassLibrary.GraphService/GraphService.cs:31-37 | The headers are a single `Authorization` header, "Bearer " followed by the chosen token. They fail only when the provider is asked and fails. |
| GraphService.Field | ClassLibrary.GraphService/ClassLibrary.GraphService/GraphService.cs:48 | A serialised 202/204 response has none of the properties paging and batching read; a document is indexed. |
| GraphService.PageDiscardsAccumulator | ClassLibrary.GraphService/ClassLibrary.GraphService/GraphService.cs:48 | A reply without `value` ends paging with that reply, whatever earlier pages gathered. |
| GraphService.PageStopsAtFailure | ClassLibrary.GraphService/ClassLibrary.GraphService/GraphService.cs:44-55 | After pages that all link onward, an exception, or a document that is not an object, ends paging with that exception after one GET per page read plus the failing one. |
| GraphService.PageFollowsChain | ClassLibrary.GraphService/ClassLibrary.GraphService/GraphService.cs:39-58 | A chain of pages gets one GET per page, to the first url and then each next link. The result is every page's `value` children in order. |
| GraphService.EnvelopesShape | ClassLibrary.GraphService/ClassLibrary.GraphService/GraphService.cs:64-79 | Every envelope holds 1 to 20 requests, with ids "1".."k", the given method and body, and one `Content-Type: application/json` header. |
| GraphService.EnvelopesCoverUrls | ClassLibrary.GraphService/ClassLibrary.GraphService/GraphService.cs:67-83 | The envelopes' urls, concatenated in send order, are exactly the input urls. |
| GraphService.EnvelopeCount | ClassLibrary.GraphService/ClassLibrary.GraphService/GraphService.cs:73 | When the last url occurs nowhere earlier, L urls make ceil(L/20) envelopes. |
| GraphService.EnvelopeBoundaries | ClassLibrary.GraphService/ClassLibrary.GraphService/GraphService.cs:73 | Each envelope closes at its 20th request, or at a url equal to the last url, which occurs nowhere earlier in it. |
| GraphService.BatchJsonRoundTrip | ClassLibrary.GraphService/ClassLibrary.GraphService/GraphService.cs:75 | The serialised envelope reads back as the same requests, ids, methods, urls, bodies and headers. |
| GraphService.BodiesOfSpec | ClassLibrary.GraphService/ClassLibrary.GraphService/GraphService.cs:77 | Over object sub-responses there is one body per sub-response that has one, and every body comes from one; any other sub-response throws. |
| GraphService.BodiesOfOne | ClassLibrary.GraphService/ClassLibrary.GraphService/GraphService.cs:77 | One object sub-response yields its `body`, or nothing when it has none. |
| GraphService.BodiesOfAppend | ClassLibrary.GraphService/ClassLibrary.GraphService/GraphService.cs:77 | The bodies of two lists read together are the first list's bodies followed by the second's, in received order and multiplicity; the first exception is the whole call's. |
| GraphService.Dispatch | ClassLibrary.GraphService/ClassLibrary.GraphService/GraphService.cs:73-80 | No envelopes means no calls and an empty result; there is at most one POST per envelope; a token failure throws before the first POST. |
| GraphService.DispatchStopsAtFailure | ClassLibrary.GraphService/ClassLibrary.GraphService/GraphService.cs:73-80 | When answers before the k-th all yield bodies and the k-th throws, exactly the first k + 1 envelopes are POSTed, in order, and the call throws that exception. |
| GraphService.DispatchRunsOut | ClassLibrary.GraphService/ClassLibrary.GraphService/GraphService.cs:73-80 | When every reply is readable but there are fewer replies than envelopes, each reply is consumed and one more POST goes out unanswered. |
| GraphService.Batch | ClassLibrary.GraphService/ClassLibrary.GraphService/GraphService.cs:60-84 | An empty url list sends nothing and returns nothing; there are never more POSTs than urls. |
| GraphService.DispatchAllAnswered | ClassLibrary.GraphService/ClassLibrary.GraphService/GraphService.cs:73-80 | When every reply can be read, each envelope is POSTed once, in order, to the batch endpoint, and the result is all the bodies in envelope order. |
| GraphService.GroupUrlInjective | ClassLibrary.GraphService/ClassLibrary.GraphService/GraphService.cs:93 | Group urls are equal iff the group ids are equal. |
| GraphService.GroupEnvelopes | ClassLibrary.GraphService/ClassLibrary.GraphService/GraphService.cs:93-94 | With a unique last id, n ids make ceil(n/20) envelopes, carrying the ids' urls in input order. |
| GraphService.FirstsOf | ClassLibrary.GraphService/ClassLibrary.GraphService/GraphService.cs:95 | Body by body, the result is the first child of each `value`; a body without `value` throws. |
| GraphService.GetGroups | ClassLibrary.GraphService/ClassLibrary.GraphService/GraphService.cs:91-97 | It makes the batch's calls and succeeds iff the batch did and every body has a first-of-`value`. The result has one entry per body. |

## Left out

- HTTP I/O, `async`/`.Result`, and `Thread.Sleep` are left out. A response is
  a script entry and a sleep is a value in the run.
- Exceptions swallowed by the header loop are left out. The loop's `catch`
  swallows every exception from `Remove` and `Add`, not only those of
  concurrent use. A value that `Add` rejects therefore leaves the header
  removed rather than replaced. The model's merge always succeeds, runs
  sequentially, and compares header names exactly rather than
  case-insensitively.
- A request body is a JSON value. A body string that is not JSON text
  cannot be represented.
- JSON text parsing is left out. A response carries the parse result as a
  parameter. Numbers are integers only.
- `ToString()` of an array or object is modelled by its opening bracket
  only. Such text never parses as an integer either way, so the difference
  shows only in a next link that is not a string.
- The serialised 202/204 response object is opaque, apart from its status.
- The top-level `Retry-After` header path (`TimeSpan.Seconds` and the
  default of 5) is left out: a 429 throws while the body is read and never
  gets there.
- The `default` branch of the method switch is left out. `Method` has only
  the five cases.
- AuthService is not part of this model. The provider's answer is a
  parameter, and the same answer holds for every call of one run.
- The interface files declare signatures only and are not part of this model.
- GraphService.Page: its own contract only bounds the number of calls and
  states the token failure. Its behaviour is stated by PageFollowsChain,
  PageStopsAtFailure and PageDiscardsAccumulator.
- Numbers.ParseInt32: its own contract only bounds the result. The
  print/parse round trip is ParseIntText.

=== FILE: graph_service.dfy ===
/** `GraphService`: the bearer header, paging through `@odata.nextLink`,
    batching requests into `$batch` envelopes, and `GetGroups` on top of
    batching. The HTTP layer is seen through `IHttpService`: every call to
    `GetResponseAsync` is answered, in order, by the next entry of a script
    of replies (a returned document or a thrown exception). */
module GraphService {
  import opened Wrappers
  import opened Numbers
  import opened Json
  import opened HttpService

  const GraphResource: string := "https://graph.microsoft.com/"
  const BatchEndpoint: string := "https://graph.microsoft.com/v1.0/$batch"

  /** The most requests one `$batch` envelope carries. */
  const MaxBatchSize: nat := 20

  /** What `GetResponseAsync` returned, or the exception it threw. */
  type Answer = Result<Reply, Fault>

  /** How a call sequence ended. `OutOfReplies` means the script had no
      answer left for a call the code made. */
  datatype Ending<T> = Done(value: T) | Failed(fault: Fault) | OutOfReplies

  /** The `GetResponseAsync` calls made, in order, and how it ended. */
  datatype Run<T> = Run(calls: seq<Request>, ending: Ending<T>)

  // ---------------------------------------------------------------------
  // Access token and headers

  /** Where a token comes from: whether a debugger is attached, the token
      given to `Initialize` (if any), and what the identity provider answers
      for `GraphResource`. */
  datatype Credentials = Credentials(debuggerAttached: bool, debugToken: Option<string>, issued: Result<string, Fault>)

  /** The token `GetHeaders` uses: the debug token when a debugger is
      attached and one was given; otherwise the provider is asked. */
  function AccessToken(c: Credentials): (r: Result<string, Fault>)
    ensures c.debuggerAttached && c.debugToken.Some? ==> r == Success(c.debugToken.value)
    ensures !(c.debuggerAttached && c.debugToken.Some?) ==> r == c.issued
  {
    if c.debuggerAttached && c.debugToken.Some? then Success(c.debugToken.value) else c.issued
  }

  const BearerPrefix: string := "Bearer "

  /** `GetHeaders`: a fresh header collection holding only the bearer
      `Authorization` header. */
  function GetHeaders(c: Credentials): Result<seq<Header>, Fault> {
    var token :- AccessToken(c);
    Success([("Authorization", [BearerPrefix + token])])
  }

  /** The headers carry exactly one header, `Authorization`, with one
      value from which stripping "Bearer " gives back the chosen token;
      they fail exactly when the provider is asked and fails. */
  lemma GetHeadersCarryToken(c: Credentials)
    ensures GetHeaders(c).Success? <==> AccessToken(c).Success?
    ensures GetHeaders(c).Success? ==>
              var hs := GetHeaders(c).value;
              && |hs| == 1 && hs[0].0 == "Authorization" && |hs[0].1| == 1
              && hs[0].1[0][..|BearerPrefix|] == BearerPrefix
              && hs[0].1[0][|BearerPrefix|..] == AccessToken(c).value
  {
    if GetHeaders(c).Success? {
      var v := GetHeaders(c).value[0].1[0];
      assert v == BearerPrefix + AccessToken(c).value;
    }
  }

  // ---------------------------------------------------------------------
  // Reading fields of a reply

  /** `response[key]` on what `GetResponseAsync` returned. The serialised
      response object of a 202/204 has none of the properties the paging
      and batching code asks for. */
  function Field(reply: Reply, key: string): (r: Result<Option<Json>, Fault>)
    ensures reply.ResponseSnapshot? ==> r == Success(None)
    ensures reply.Document? ==> r == Index(reply.doc, key)
  {
    match reply
    case Document(j) => Index(j, key)
    case ResponseSnapshot(_) => Success(None)
  }

  // ---------------------------------------------------------------------
  // Paging

  /** What `Page` returns: the reply itself (a single resource), or the
      tokens gathered from the `value` of every page. */
  datatype PageResult = Whole(reply: Reply) | Items(tokens: seq<Token>)

  function GetCall(url: string, headers: seq<Header>): Request {
    Request(url, Get, Some(headers), None, None)
  }

  /** `Page(url, value)`: GET the url; a reply without `value` is returned
      as it is, dropping what was gathered so far; otherwise the `value`
      children are appended and `@odata.nextLink`, when present, is
      followed. */
  function Page(c: Credentials, url: string, acc: seq<Token>, replies: seq<Answer>): (run: Run<PageResult>)
    ensures |run.calls| <= |replies| + 1
    ensures GetHeaders(c).Failure? ==> run == Run([], Failed(GetHeaders(c).error))
    decreases |replies|
  {
    match GetHeaders(c)
    case Failure(f) => Run([], Failed(f))
    case Success(headers) =>
      var call := GetCall(url, headers);
      if |replies| == 0 then
        Run([call], OutOfReplies)
      else
        match replies[0]
        case Failure(f) => Run([call], Failed(f))
        case Success(reply) =>
          match Field(reply, "value")
          case Failure(f) => Run([call], Failed(f))
          case Success(None) => Run([call], Done(Whole(reply)))
          case Success(Some(v)) =>
            var gathered := acc + Children(v);
            match Field(reply, "@odata.nextLink")
            case Failure(f) => Run([call], Failed(f))
            case Success(None) => Run([call], Done(Items(gathered)))
            case Success(Some(link)) =>
              var rest := Page(c, Text(link), gathered, replies[1..]);
              Run([call] + rest.calls, rest.ending)
  }

  /** `Get(url)`: paging from an empty accumulator. */
  function GetAll(c: Credentials, url: string, replies: seq<Answer>): Run<PageResult> {
    Page(c, url, [], replies)
  }

  /** A reply without `value` ends paging with that reply, whatever was
      gathered from earlier pages. */
  lemma PageDiscardsAccumulator(c: Credentials, url: string, acc: seq<Token>, replies: seq<Answer>)
    requires GetHeaders(c).Success? && |replies| > 0 && replies[0].Success?
    requires Field(replies[0].value, "value") == Success(None)
    ensures Page(c, url, acc, replies) == Run([GetCall(url, GetHeaders(c).value)], Done(Whole(replies[0].value)))
  {
  }

  /** A page: an object with a `value` property. */
  predicate IsPage(j: Json) {
    j.JObj? && Lookup(j.fields, "value").Some?
  }

  function PageValue(j: Json): Json
    requires IsPage(j)
  {
    Lookup(j.fields, "value").value
  }

  function NextLink(j: Json): Option<Json>
    requires j.JObj?
  {
    Lookup(j.fields, "@odata.nextLink")
  }

  /** A chain of pages: every one has `value`, every one but the last
      has a next link, and the last has none. */
  predicate IsPageChain(pages: seq<Json>) {
    && |pages| > 0
    && (forall k :: 0 <= k < |pages| ==> IsPage(pages[k]))
    && (forall k :: 0 <= k < |pages| - 1 ==> NextLink(pages[k]).Some?)
    && NextLink(pages[|pages| - 1]).None?
  }

  /** The url of every page of a chain: the first is `url`, each next one
      is the text of the previous page's next link. */
  function ChainUrls(url: string, pages: seq<Json>): (urls: seq<string>)
    requires IsPageChain(pages)
  {
    [url] + seq(|pages| - 1, k requires 0 <= k < |pages| - 1 => Text(NextLink(pages[k]).value))
  }

  /** Every page's `value` children, page after page. */
  function ChainValues(pages: seq<Json>): seq<Token>
    requires forall k :: 0 <= k < |pages| ==> IsPage(pages[k])
  {
    if |pages| == 0 then [] else Children(PageValue(pages[0])) + ChainValues(pages[1..])
  }

  function Documents(pages: seq<Json>): seq<Answer> {
    seq(|pages|, k requires 0 <= k < |pages| => Success(Document(pages[k])))
  }

  function GetCalls(urls: seq<string>, headers: seq<Header>): seq<Request> {
    seq(|urls|, k requires 0 <= k < |urls| => GetCall(urls[k], headers))
  }

  /** One page with a next link: one GET, then paging from the link
      with the page's `value` children gathered. */
  lemma PageStepLink(c: Credentials, url: string, acc: seq<Token>, page: Json, rest: seq<Answer>)
    requires GetHeaders(c).Success? && IsPage(page) && NextLink(page).Some?
    ensures var next := Page(c, Text(NextLink(page).value), acc + Children(PageValue(page)), rest);
            Page(c, url, acc, [Success(Document(page))] + rest)
            == Run([GetCall(url, GetHeaders(c).value)] + next.calls, next.ending)
  {
    var replies := [Success(Document(page))] + rest;
    assert replies[0] == Success(Document(page)) && replies[1..] == rest;
  }

  /** The last page: one GET, and paging ends with the gathered tokens. */
  lemma PageStepLast(c: Credentials, url: string, acc: seq<Token>, page: Json, rest: seq<Answer>)
    requires GetHeaders(c).Success? && IsPage(page) && NextLink(page).None?
    ensures Page(c, url, acc, [Success(Document(page))] + rest)
            == Run([GetCall(url, GetHeaders(c).value)], Done(Items(acc + Children(PageValue(page)))))
  {
    var replies := [Success(Document(page))] + rest;
    assert replies[0] == Success(Document(page));
  }

  lemma ChainCons(url: string, pages: seq<Json>, headers: seq<Header>)
    requires IsPageChain(pages) && |pages| > 1
    ensures IsPageChain(pages[1..])
    ensures GetCalls(ChainUrls(url, pages), headers)
            == [GetCall(url, headers)] + GetCalls(ChainUrls(Text(NextLink(pages[0]).value), pages[1..]), headers)
  {
    var tail := pages[1..];
    assert forall k :: 0 <= k < |tail| ==> tail[k] == pages[k + 1];
    var urls := ChainUrls(url, pages);
    var tailUrls := ChainUrls(Text(NextLink(pages[0]).value), tail);
    assert urls == [url] + tailUrls;
  }

  /** Paging a chain issues exactly one GET per page, to the page urls in
      order, and returns what was gathered followed by every page's
      `value` children in traversal order. */
  lemma {:induction false} PageFollowsChain(c: Credentials, url: string, acc: seq<Token>, pages: seq<Json>, more: seq<Answer>)
    requires GetHeaders(c).Success?
    requires IsPageChain(pages)
    ensures Page(c, url, acc, Documents(pages) + more)
            == Run(GetCalls(ChainUrls(url, pages), GetHeaders(c).value), Done(Items(acc + ChainValues(pages))))
    decreases |pages|
  {
    var headers := GetHeaders(c).value;
    var page := pages[0];
    var tail := pages[1..];
    var rest := Documents(tail) + more;
    assert Documents(pages) + more == [Success(Document(page))] + rest;
    var gathered := acc + Children(PageValue(page));
    assert acc + ChainValues(pages) == gathered + ChainValues(tail);
    if |pages| == 1 {
      PageStepLast(c, url, acc, page, rest);
      assert ChainValues(tail) == [];
      assert ChainUrls(url, pages) == [url];
      assert GetCalls([url], headers) == [GetCall(url, headers)];
      assert acc + ChainValues(pages) == gathered;
      assert Page(c, url, acc, Documents(pages) + more) == Run([GetCall(url, headers)], Done(Items(gathered)));
    } else {
      var link := Text(NextLink(page).value);
      ChainCons(url, pages, headers);
      PageStepLink(c, url, acc, page, rest);
      PageFollowsChain(c, link, gathered, tail, more);
    }
  }

  /** The urls of the GETs up to a failing one: `url`, then the next link
      of every page read before it. */
  function OpenChainUrls(url: string, pages: seq<Json>): (urls: seq<string>)
    requires forall k :: 0 <= k < |pages| ==> IsPage(pages[k]) && NextLink(pages[k]).Some?
  {
    [url] + seq(|pages|, k requires 0 <= k < |pages| && IsPage(pages[k]) => Text(NextLink(pages[k]).value))
  }

  /** An exception while paging ends the call: after pages that all link
      onward, an answer that is an exception, or a document that is not an
      object (indexing it throws), stops paging with that exception, and
      exactly one GET per page read plus the failing one has gone out. */
  lemma {:induction false} PageStopsAtFailure(c: Credentials, url: string, acc: seq<Token>, pages: seq<Json>,
                                              bad: Answer, f: Fault, more: seq<Answer>)
    requires GetHeaders(c).Success?
    requires forall k :: 0 <= k < |pages| ==> IsPage(pages[k]) && NextLink(pages[k]).Some?
    requires bad == Failure(f) || (bad.Success? && bad.value.Document? && !bad.value.doc.JObj? && f == BadAccess)
    ensures Page(c, url, acc, Documents(pages) + [bad] + more)
            == Run(GetCalls(OpenChainUrls(url, pages), GetHeaders(c).value), Failed(f))
    decreases |pages|
  {
    var headers := GetHeaders(c).value;
    if |pages| == 0 {
      var replies := Documents(pages) + [bad] + more;
      assert replies[0] == bad;
      assert OpenChainUrls(url, pages) == [url];
      assert GetCalls([url], headers) == [GetCall(url, headers)];
    } else {
      var page := pages[0];
      var tail := pages[1..];
      var rest := Documents(tail) + [bad] + more;
      assert Documents(pages) + [bad] + more == [Success(Document(page))] + rest;
      var link := Text(NextLink(page).value);
      PageStepLink(c, url, acc, page, rest);
      PageStopsAtFailure(c, link, acc + Children(PageValue(page)), tail, bad, f, more);
      assert OpenChainUrls(url, pages) == [url] + OpenChainUrls(link, tail);
      assert GetCalls(OpenChainUrls(url, pages), headers)
             == [GetCall(url, headers)] + GetCalls(OpenChainUrls(link, tail), headers);
    }
  }

  // ---------------------------------------------------------------------
  // Batch envelopes

  /** `GraphBatchRequest`: the sub-request's id, method, url, the common
      body (a JSON object) and its headers. */
  datatype BatchRequest = BatchRequest(id: string, verb: string, url: string,
                                       body: Option<seq<(string, Json)>>, headers: seq<(string, string)>)

  /** `GraphBatch`. */
  datatype GraphBatch = GraphBatch(requests: seq<BatchRequest>)

  /** The one header every sub-request carries. */
  const SubRequestHeaders: seq<(string, string)> := [("Content-Type", "application/json")]

  /** `new GraphBatchRequest(id.ToString(), method, url, commonBody)`. */
  function NewBatchRequest(id: nat, verb: string, url: string, body: Option<seq<(string, Json)>>): BatchRequest {
    BatchRequest(DecimalString(id), verb, url, body, SubRequestHeaders)
  }

  /** The `foreach` of `Batch` from position `i` with the envelope under
      construction `batch` (whose size is the id counter): add the next
      request with the next id, and close the envelope when it holds 20 or
      the url equals the last url of the input. Where envelopes close
      depends only on the urls, so they are all known before any reply. */
  function EnvelopesFrom(urls: seq<string>, verb: string, body: Option<seq<(string, Json)>>,
                         i: nat, batch: seq<BatchRequest>): seq<GraphBatch>
    requires i <= |urls| && |batch| < MaxBatchSize
    decreases |urls| - i
  {
    if i == |urls| then
      []
    else
      var id := |batch| + 1;
      var grown := batch + [NewBatchRequest(id, verb, urls[i], body)];
      if id == MaxBatchSize || urls[i] == urls[|urls| - 1] then
        [GraphBatch(grown)] + EnvelopesFrom(urls, verb, body, i + 1, [])
      else
        EnvelopesFrom(urls, verb, body, i + 1, grown)
  }

  /** The envelopes `Batch` posts, in order. */
  function Envelopes(urls: seq<string>, verb: string, body: Option<seq<(string, Json)>>): seq<GraphBatch> {
    EnvelopesFrom(urls, verb, body, 0, [])
  }

  function RequestUrls(reqs: seq<BatchRequest>): seq<string> {
    seq(|reqs|, j requires 0 <= j < |reqs| => reqs[j].url)
  }

  /** The urls of all envelopes, envelope after envelope. */
  function EnvelopeUrls(envs: seq<GraphBatch>): seq<string> {
    if |envs| == 0 then [] else RequestUrls(envs[0].requests) + EnvelopeUrls(envs[1..])
  }

  /** Requests numbered "1", "2", ... with the given method, body and the
      single JSON content-type header. */
  predicate Numbered(reqs: seq<BatchRequest>, verb: string, body: Option<seq<(string, Json)>>) {
    forall j :: 0 <= j < |reqs| ==>
      reqs[j].id == DecimalString(j + 1) && reqs[j].verb == verb && reqs[j].body == body
      && reqs[j].headers == SubRequestHeaders
  }

  lemma {:induction false} EnvelopesFromShape(urls: seq<string>, verb: string, body: Option<seq<(string, Json)>>,
                                              i: nat, batch: seq<BatchRequest>)
    requires i <= |urls| && |batch| < MaxBatchSize
    requires Numbered(batch, verb, body)
    ensures forall k :: 0 <= k < |EnvelopesFrom(urls, verb, body, i, batch)| ==>
              var reqs := EnvelopesFrom(urls, verb, body, i, batch)[k].requests;
              0 < |reqs| <= MaxBatchSize && Numbered(reqs, verb, body)
    decreases |urls| - i
  {
    if i < |urls| {
      var id := |batch| + 1;
      var grown := batch + [NewBatchRequest(id, verb, urls[i], body)];
      assert Numbered(grown, verb, body);
      if id == MaxBatchSize || urls[i] == urls[|urls| - 1] {
        EnvelopesFromShape(urls, verb, body, i + 1, []);
        var rest := EnvelopesFrom(urls, verb, body, i + 1, []);
        assert EnvelopesFrom(urls, verb, body, i, batch) == [GraphBatch(grown)] + rest;
      } else {
        EnvelopesFromShape(urls, verb, body, i + 1, grown);
      }
    }
  }

  /** Every envelope holds between 1 and 20 requests, with ids "1" to
      "k" in order, the given method and body, and one header,
      `Content-Type: application/json`. */
  lemma EnvelopesShape(urls: seq<string>, verb: string, body: Option<seq<(string, Json)>>)
    ensures forall k :: 0 <= k < |Envelopes(urls, verb, body)| ==>
              var reqs := Envelopes(urls, verb, body)[k].requests;
              0 < |reqs| <= MaxBatchSize && Numbered(reqs, verb, body)
  {
    EnvelopesFromShape(urls, verb, body, 0, []);
  }

  lemma {:induction false} EnvelopesFromUrls(urls: seq<string>, verb: string, body: Option<seq<(string, Json)>>,
                                             i: nat, batch: seq<BatchRequest>)
    requires i <= |urls| && |batch| < MaxBatchSize
    requires batch != [] ==> i < |urls|
    ensures EnvelopeUrls(EnvelopesFrom(urls, verb, body, i, batch)) == RequestUrls(batch) + urls[i..]
    decreases |urls| - i
  {
    if i < |urls| {
      var id := |batch| + 1;
      var grown := batch + [NewBatchRequest(id, verb, urls[i], body)];
      assert RequestUrls(grown) == RequestUrls(batch) + [urls[i]];
      assert urls[i..] == [urls[i]] + urls[i + 1..];
      if id == MaxBatchSize || urls[i] == urls[|urls| - 1] {
        EnvelopesFromUrls(urls, verb, body, i + 1, []);
        var rest := EnvelopesFrom(urls, verb, body, i + 1, []);
        assert EnvelopesFrom(urls, verb, body, i, batch) == [GraphBatch(grown)] + rest;
        assert EnvelopeUrls([GraphBatch(grown)] + rest) == RequestUrls(grown) + EnvelopeUrls(rest);
      } else {
        EnvelopesFromUrls(urls, verb, body, i + 1, grown);
      }
    } else {
      assert RequestUrls(batch) == [];
    }
  }

  /** The envelopes' urls, concatenated in send order, are the input urls:
      each url is sent exactly once, in order, since the last url always
      closes an envelope. */
  lemma EnvelopesCoverUrls(urls: seq<string>, verb: string, body: Option<seq<(string, Json)>>)
    ensures EnvelopeUrls(Envelopes(urls, verb, body)) == urls
  {
    EnvelopesFromUrls(urls, verb, body, 0, []);
    assert RequestUrls([]) == [];
  }

  /** The last input url occurs nowhere earlier in the input. */
  predicate LastUrlUnique(urls: seq<string>) {
    forall j :: 0 <= j < |urls| - 1 ==> urls[j] != urls[|urls| - 1]
  }

  lemma {:induction false} EnvelopesFromCount(urls: seq<string>, verb: string, body: Option<seq<(string, Json)>>,
                                              i: nat, batch: seq<BatchRequest>)
    requires i <= |urls| && |batch| < MaxBatchSize
    requires batch != [] ==> i < |urls|
    requires LastUrlUnique(urls)
    ensures |EnvelopesFrom(urls, verb, body, i, batch)| == (|batch| + |urls| - i + 19) / 20
    decreases |urls| - i
  {
    if i < |urls| {
      var id := |batch| + 1;
      var grown := batch + [NewBatchRequest(id, verb, urls[i], body)];
      if id == MaxBatchSize {
        EnvelopesFromCount(urls, verb, body, i + 1, []);
      } else if urls[i] == urls[|urls| - 1] {
        assert i == |urls| - 1;
        EnvelopesFromCount(urls, verb, body, i + 1, []);
      } else {
        EnvelopesFromCount(urls, verb, body, i + 1, grown);
      }
    }
  }

  /** When the last url does not occur earlier, `Batch` posts
      ceil(L / 20) envelopes for L urls (none for an empty input). */
  lemma EnvelopeCount(urls: seq<string>, verb: string, body: Option<seq<(string, Json)>>)
    requires LastUrlUnique(urls)
    ensures |Envelopes(urls, verb, body)| == (|urls| + 19) / 20
  {
    EnvelopesFromCount(urls, verb, body, 0, []);
  }

  lemma {:induction false} EnvelopesFromBoundaries(urls: seq<string>, verb: string, body: Option<seq<(string, Json)>>,
                                                   i: nat, batch: seq<BatchRequest>)
    requires i <= |urls| && |batch| < MaxBatchSize
    requires forall j :: 0 <= j < |batch| ==> 0 < |urls| && batch[j].url != urls[|urls| - 1]
    ensures forall k :: 0 <= k < |EnvelopesFrom(urls, verb, body, i, batch)| ==>
              var reqs := EnvelopesFrom(urls, verb, body, i, batch)[k].requests;
              && 0 < |reqs|
              && (|reqs| == MaxBatchSize || reqs[|reqs| - 1].url == urls[|urls| - 1])
              && forall j :: 0 <= j < |reqs| - 1 ==> reqs[j].url != urls[|urls| - 1]
    decreases |urls| - i
  {
    if i < |urls| {
      var id := |batch| + 1;
      var grown := batch + [NewBatchRequest(id, verb, urls[i], body)];
      if id == MaxBatchSize || urls[i] == urls[|urls| - 1] {
        EnvelopesFromBoundaries(urls, verb, body, i + 1, []);
        var rest := EnvelopesFrom(urls, verb, body, i + 1, []);
        assert EnvelopesFrom(urls, verb, body, i, batch) == [GraphBatch(grown)] + rest;
      } else {
        EnvelopesFromBoundaries(urls, verb, body, i + 1, grown);
      }
    }
  }

  /** Where envelopes close: each one ends with its 20th request or with
      a url equal to the input's last url, and no earlier request in it
      has that url. So an early repeat of the last url closes an envelope
      early. */
  lemma EnvelopeBoundaries(urls: seq<string>, verb: string, body: Option<seq<(string, Json)>>)
    ensures forall k :: 0 <= k < |Envelopes(urls, verb, body)| ==>
              var reqs := Envelopes(urls, verb, body)[k].requests;
              && 0 < |reqs|
              && (|reqs| == MaxBatchSize || reqs[|reqs| - 1].url == urls[|urls| - 1])
              && forall j :: 0 <= j < |reqs| - 1 ==> reqs[j].url != urls[|urls| - 1]
  {
    EnvelopesFromBoundaries(urls, verb, body, 0, []);
  }

  // ---------------------------------------------------------------------
  // Envelope serialisation (`JsonConvert.SerializeObject(batch)`)

  function BodyJson(body: Option<seq<(string, Json)>>): Json {
    match body
    case None => JNull
    case Some(fields) => JObj(fields)
  }

  function HeadersJson(headers: seq<(string, string)>): Json {
    JObj(seq(|headers|, j requires 0 <= j < |headers| => (headers[j].0, JStr(headers[j].1))))
  }

  function RequestJson(r: BatchRequest): Json {
    JObj([("Id", JStr(r.id)), ("Method", JStr(r.verb)), ("Url", JStr(r.url)),
          ("Body", BodyJson(r.body)), ("Headers", HeadersJson(r.headers))])
  }

  function RequestsJson(reqs: seq<BatchRequest>): seq<Json> {
    seq(|reqs|, j requires 0 <= j < |reqs| => RequestJson(reqs[j]))
  }

  /** The request body of a batch POST: public fields in declaration
      order, `null` for a missing body. */
  function BatchJson(b: GraphBatch): Json {
    JObj([("Requests", JArr(RequestsJson(b.requests)))])
  }

  function DecodeHeaders(fields: seq<(string, Json)>): Option<seq<(string, string)>> {
    if |fields| == 0 then
      Some([])
    else
      match fields[0].1
      case JStr(v) =>
        (match DecodeHeaders(fields[1..])
         case Some(rest) => Some([(fields[0].0, v)] + rest)
         case None => None)
      case _ => None
  }

  function DecodeRequest(j: Json): Option<BatchRequest> {
    match j
    case JObj(fs) =>
      if |fs| == 5 && fs[0].0 == "Id" && fs[1].0 == "Method" && fs[2].0 == "Url"
         && fs[3].0 == "Body" && fs[4].0 == "Headers"
         && fs[0].1.JStr? && fs[1].1.JStr? && fs[2].1.JStr?
         && (fs[3].1.JNull? || fs[3].1.JObj?) && fs[4].1.JObj?
      then
        var body := if fs[3].1.JNull? then None else Some(fs[3].1.fields);
        match DecodeHeaders(fs[4].1.fields)
        case Some(hs) => Some(BatchRequest(fs[0].1.s, fs[1].1.s, fs[2].1.s, body, hs))
        case None => None
      else
        None
    case _ => None
  }

  function DecodeRequests(items: seq<Json>): Option<seq<BatchRequest>> {
    if |items| == 0 then
      Some([])
    else
      match DecodeRequest(items[0])
      case None => None
      case Some(r) =>
        match DecodeRequests(items[1..])
        case None => None
        case Some(rest) => Some([r] + rest)
  }

  /** Reads an envelope back from its JSON. */
  function DecodeBatch(j: Json): Option<GraphBatch> {
    match j
    case JObj(fs) =>
      if |fs| == 1 && fs[0].0 == "Requests" && fs[0].1.JArr? then
        match DecodeRequests(fs[0].1.items)
        case Some(rs) => Some(GraphBatch(rs))
        case None => None
      else
        None
    case _ => None
  }

  lemma {:induction false} HeadersRoundTrip(headers: seq<(string, string)>)
    ensures DecodeHeaders(HeadersJson(headers).fields) == Some(headers)
    decreases |headers|
  {
    if |headers| > 0 {
      var fields := HeadersJson(headers).fields;
      assert fields[1..] == HeadersJson(headers[1..]).fields;
      HeadersRoundTrip(headers[1..]);
      assert headers == [headers[0]] + headers[1..];
    }
  }

  lemma {:induction false} RequestsRoundTrip(reqs: seq<BatchRequest>)
    ensures DecodeRequests(RequestsJson(reqs)) == Some(reqs)
    decreases |reqs|
  {
    if |reqs| > 0 {
      var items := RequestsJson(reqs);
      var r := reqs[0];
      HeadersRoundTrip(r.headers);
      assert DecodeRequest(items[0]) == Some(r);
      assert items[1..] == RequestsJson(reqs[1..]);
      RequestsRoundTrip(reqs[1..]);
      assert reqs == [r] + reqs[1..];
    }
  }

  /** The envelope's JSON holds everything about it: reading it back
      gives every request, id, method, url, body and header. */
  lemma BatchJsonRoundTrip(b: GraphBatch)
    ensures DecodeBatch(BatchJson(b)) == Some(b)
  {
    RequestsRoundTrip(b.requests);
  }

  // ---------------------------------------------------------------------
  // Posting envelopes and unpacking replies

  /** `responses.Select(r => r["body"]).Where(b => b != null)` over the
      sub-responses: a missing `body` is skipped (a JSON `null` body is a
      token, so it is kept), and indexing a sub-response that is not an
      object throws. */
  function BodiesOf(ts: seq<Token>): Result<seq<Json>, Fault> {
    if |ts| == 0 then
      Success([])
    else
      var b :- IndexToken(ts[0], "body");
      var rest :- BodiesOf(ts[1..]);
      Success(if b.Some? then [b.value] + rest else rest)
  }

  /** The sub-responses that carry a body. */
  ghost predicate HasBody(t: Token)
    requires t.Item? && t.doc.JObj?
  {
    Lookup(t.doc.fields, "body").Some?
  }

  /** Over well-formed sub-responses there is one body per sub-response
      that has one, and each body comes from such a sub-response; a
      sub-response that is not an object makes it throw. Order is the
      business of `BodiesOfOne` and `BodiesOfAppend`. */
  lemma {:induction false} BodiesOfSpec(ts: seq<Token>)
    ensures AllObjects(ts) <==> BodiesOf(ts).Success?
    ensures !AllObjects(ts) ==> BodiesOf(ts) == Failure(BadAccess)
    ensures AllObjects(ts) ==>
              && |BodiesOf(ts).value| <= |ts|
              && (|BodiesOf(ts).value| == |ts| <==> forall i :: 0 <= i < |ts| ==> HasBody(ts[i]))
              && (forall i :: 0 <= i < |ts| && HasBody(ts[i]) ==> Lookup(ts[i].doc.fields, "body").value in BodiesOf(ts).value)
              && (forall b :: b in BodiesOf(ts).value ==> exists i :: 0 <= i < |ts| && HasBody(ts[i]) && Lookup(ts[i].doc.fields, "body").value == b)
    decreases |ts|
  {
    if |ts| > 0 {
      var tail := ts[1..];
      BodiesOfSpec(tail);
      assert forall i :: 0 < i < |ts| ==> ts[i] == tail[i - 1];
      if AllObjects(ts) {
        assert AllObjects(tail);
        var rest := BodiesOf(tail).value;
        if HasBody(ts[0]) {
          assert BodiesOf(ts).value == [Lookup(ts[0].doc.fields, "body").value] + rest;
        } else {
          assert BodiesOf(ts).value == rest;
          assert |rest| <= |tail|;
        }
        forall b | b in BodiesOf(ts).value
          ensures exists i :: 0 <= i < |ts| && HasBody(ts[i]) && Lookup(ts[i].doc.fields, "body").value == b
        {
          if !(HasBody(ts[0]) && b == Lookup(ts[0].doc.fields, "body").value) {
            assert b in rest;
            var i :| 0 <= i < |tail| && HasBody(tail[i]) && Lookup(tail[i].doc.fields, "body").value == b;
            assert ts[i + 1] == tail[i];
          }
        }
      } else if ts[0].Item? && ts[0].doc.JObj? {
        assert !AllObjects(tail);
      }
    }
  }

  /** A single well-formed sub-response yields its body, or nothing. */
  lemma BodiesOfOne(t: Token)
    requires t.Item? && t.doc.JObj?
    ensures BodiesOf([t]) == Success(if HasBody(t) then [Lookup(t.doc.fields, "body").value] else [])
  {
    assert [t][1..] == [];
    assert BodiesOf([]) == Success([]);
    var b := Lookup(t.doc.fields, "body");
    assert IndexToken(t, "body") == Success(b);
    if b.Some? {
      assert [b.value] + [] == [b.value];
    }
  }

  /** Reading two runs of sub-responses together is reading them one after
      the other: the bodies of the first come first, each as often as it
      arrives, and the first exception is the exception of the whole. With
      `BodiesOfOne` this fixes the result for every list. */
  lemma {:induction false} BodiesOfAppend(a: seq<Token>, b: seq<Token>)
    ensures BodiesOf(a).Failure? ==> BodiesOf(a + b) == BodiesOf(a)
    ensures BodiesOf(a).Success? && BodiesOf(b).Failure? ==> BodiesOf(a + b) == BodiesOf(b)
    ensures BodiesOf(a).Success? && BodiesOf(b).Success? ==>
              BodiesOf(a + b) == Success(BodiesOf(a).value + BodiesOf(b).value)
    decreases |a|
  {
    if |a| == 0 {
      assert a + b == b;
      if BodiesOf(b).Success? {
        assert [] + BodiesOf(b).value == BodiesOf(b).value;
      }
    } else {
      assert (a + b)[0] == a[0];
      assert (a + b)[1..] == a[1..] + b;
      BodiesOfAppend(a[1..], b);
      if BodiesOf(a).Success? && BodiesOf(b).Success? {
        var b0 := IndexToken(a[0], "body").value;
        var tail := BodiesOf(a[1..]).value;
        var after := BodiesOf(b).value;
        assert IndexToken((a + b)[0], "body") == Success(b0);
        assert BodiesOf(a[1..] + b) == Success(tail + after);
        if b0.Some? {
          assert BodiesOf(a) == Success([b0.value] + tail);
          assert BodiesOf(a + b) == Success([b0.value] + (tail + after));
          assert [b0.value] + (tail + after) == ([b0.value] + tail) + after;
        } else {
          assert BodiesOf(a) == Success(tail);
          assert BodiesOf(a + b) == Success(tail + after);
        }
      }
    }
  }

  /** `(await GetResponseAsync(...))["responses"]` and its bodies; a reply
      without `responses` hands `null` to `Select`, which throws. */
  function BatchBodies(reply: Reply): Result<seq<Json>, Fault> {
    var responses :- Field(reply, "responses");
    if responses.None? then Failure(ArgumentNull) else BodiesOf(Children(responses.value))
  }

  /** What one answer to a POST yields: the reply's bodies, or the
      exception that ends the call. */
  function AnswerBodies(a: Answer): Result<seq<Json>, Fault> {
    var reply :- a;
    BatchBodies(reply)
  }

  function PostCall(b: GraphBatch, headers: seq<Header>): Request {
    Request(BatchEndpoint, Post, Some(headers), Some(BatchJson(b)), None)
  }

  /** The bodies of one envelope in front of whatever follows. */
  function Prepend(bodies: seq<Json>, e: Ending<seq<Json>>): Ending<seq<Json>> {
    match e
    case Done(rest) => Done(bodies + rest)
    case Failed(f) => Failed(f)
    case OutOfReplies => OutOfReplies
  }

  /** POST the envelopes one after another, each answered by the next
      reply, appending the bodies; the first exception ends the call. */
  function Dispatch(c: Credentials, envs: seq<GraphBatch>, replies: seq<Answer>): (run: Run<seq<Json>>)
    ensures |run.calls| <= |envs|
    ensures envs == [] ==> run == Run([], Done([]))
    ensures envs != [] && GetHeaders(c).Failure? ==> run == Run([], Failed(GetHeaders(c).error))
    decreases |envs|
  {
    if |envs| == 0 then
      Run([], Done([]))
    else
      match GetHeaders(c)
      case Failure(f) => Run([], Failed(f))
      case Success(headers) =>
        var call := PostCall(envs[0], headers);
        if |replies| == 0 then
          Run([call], OutOfReplies)
        else
          match replies[0]
          case Failure(f) => Run([call], Failed(f))
          case Success(reply) =>
            match BatchBodies(reply)
            case Failure(f) => Run([call], Failed(f))
            case Success(bodies) =>
              var rest := Dispatch(c, envs[1..], replies[1..]);
              Run([call] + rest.calls, Prepend(bodies, rest.ending))
  }

  /** `Batch(urls, method, commonBody)`. */
  function Batch(c: Credentials, urls: seq<string>, verb: string, body: Option<seq<(string, Json)>>,
                 replies: seq<Answer>): (run: Run<seq<Json>>)
    ensures urls == [] ==> run == Run([], Done([]))
    ensures |run.calls| <= |urls|
  {
    EnvelopesCoverUrls(urls, verb, body);
    EnvelopesShape(urls, verb, body);
    EnvelopeUrlsLength(Envelopes(urls, verb, body));
    Dispatch(c, Envelopes(urls, verb, body), replies)
  }

  lemma {:induction false} EnvelopeUrlsLength(envs: seq<GraphBatch>)
    requires forall k :: 0 <= k < |envs| ==> |envs[k].requests| > 0
    ensures |envs| <= |EnvelopeUrls(envs)|
    decreases |envs|
  {
    if |envs| > 0 {
      EnvelopeUrlsLength(envs[1..]);
    }
  }

  /** The bodies each reply yields, envelope after envelope. */
  function AllBodies(replies: seq<Reply>): seq<Json>
    requires forall k :: 0 <= k < |replies| ==> BatchBodies(replies[k]).Success?
  {
    if |replies| == 0 then [] else BatchBodies(replies[0]).value + AllBodies(replies[1..])
  }

  /** When every envelope is answered by a reply whose bodies can be read,
      each envelope is posted once, in order, to the batch endpoint, and
      the result is every reply's bodies in envelope order. */
  lemma {:induction false} DispatchAllAnswered(c: Credentials, envs: seq<GraphBatch>, replies: seq<Reply>, more: seq<Answer>)
    requires GetHeaders(c).Success?
    requires |replies| == |envs|
    requires forall k :: 0 <= k < |replies| ==> BatchBodies(replies[k]).Success?
    ensures var run := Dispatch(c, envs, seq(|replies|, k requires 0 <= k < |replies| => Success(replies[k])) + more);
            && |run.calls| == |envs|
            && (forall k :: 0 <= k < |envs| ==> run.calls[k] == PostCall(envs[k], GetHeaders(c).value))
            && run.ending == Done(AllBodies(replies))
    decreases |envs|
  {
    if |envs| > 0 {
      var answers := seq(|replies|, k requires 0 <= k < |replies| => Success(replies[k])) + more;
      var tail := replies[1..];
      assert answers[1..] == seq(|tail|, k requires 0 <= k < |tail| => Success(tail[k])) + more;
      DispatchAllAnswered(c, envs[1..], tail, more);
      var run := Dispatch(c, envs, answers);
      var rest := Dispatch(c, envs[1..], answers[1..]);
      assert run.calls == [PostCall(envs[0], GetHeaders(c).value)] + rest.calls;
      assert forall k :: 1 <= k < |envs| ==> envs[k] == envs[1..][k - 1];
    }
  }

  /** The first exception ends the call: when the answers before the
      k-th all yield bodies and the k-th throws, exactly the first k + 1
      envelopes are posted, in order, and the call throws that exception. */
  lemma {:induction false} DispatchStopsAtFailure(c: Credentials, envs: seq<GraphBatch>, replies: seq<Answer>, k: nat, f: Fault)
    requires GetHeaders(c).Success?
    requires k < |envs| && k < |replies|
    requires forall i :: 0 <= i < k ==> AnswerBodies(replies[i]).Success?
    requires AnswerBodies(replies[k]) == Failure(f)
    ensures var run := Dispatch(c, envs, replies);
            && |run.calls| == k + 1
            && (forall i :: 0 <= i <= k ==> run.calls[i] == PostCall(envs[i], GetHeaders(c).value))
            && run.ending == Failed(f)
    decreases k
  {
    if k > 0 {
      assert AnswerBodies(replies[0]).Success?;
      var tailEnvs := envs[1..];
      var tailReplies := replies[1..];
      assert forall i :: 0 <= i < k - 1 ==> tailReplies[i] == replies[i + 1];
      DispatchStopsAtFailure(c, tailEnvs, tailReplies, k - 1, f);
      var rest := Dispatch(c, tailEnvs, tailReplies);
      assert Dispatch(c, envs, replies).calls == [PostCall(envs[0], GetHeaders(c).value)] + rest.calls;
      assert forall i :: 1 <= i <= k ==> envs[i] == tailEnvs[i - 1];
    }
  }

  /** Replies that run out before the envelopes do: every reply is
      readable, so each is consumed, and one more POST goes out unanswered. */
  lemma {:induction false} DispatchRunsOut(c: Credentials, envs: seq<GraphBatch>, replies: seq<Answer>)
    requires GetHeaders(c).Success?
    requires |replies| < |envs|
    requires forall i :: 0 <= i < |replies| ==> AnswerBodies(replies[i]).Success?
    ensures var run := Dispatch(c, envs, replies);
            && |run.calls| == |replies| + 1
            && (forall i :: 0 <= i <= |replies| ==> run.calls[i] == PostCall(envs[i], GetHeaders(c).value))
            && run.ending == OutOfReplies
    decreases |replies|
  {
    if |replies| > 0 {
      assert AnswerBodies(replies[0]).Success?;
      var tailEnvs := envs[1..];
      var tailReplies := replies[1..];
      assert forall i :: 0 <= i < |tailReplies| ==> tailReplies[i] == replies[i + 1];
      DispatchRunsOut(c, tailEnvs, tailReplies);
      var rest := Dispatch(c, tailEnvs, tailReplies);
      assert Dispatch(c, envs, replies).calls == [PostCall(envs[0], GetHeaders(c).value)] + rest.calls;
      assert forall i :: 1 <= i <= |replies| ==> envs[i] == tailEnvs[i - 1];
    }
  }

  // ---------------------------------------------------------------------
  // GetGroups

  const GroupUrlPrefix: string := "/groups?$filter=id eq '"
  const GroupUrlSuffix: string := "'&$expand=owners&$select=id,displayName,owners"

  /** The lookup url for one group id. */
  function GroupUrl(groupId: string): string {
    GroupUrlPrefix + groupId + GroupUrlSuffix
  }

  function GroupUrls(groupIds: seq<string>): seq<string> {
    seq(|groupIds|, i requires 0 <= i < |groupIds| => GroupUrl(groupIds[i]))
  }

  /** Different group ids give different urls, so `Batch` closes an
      envelope early for `GetGroups` exactly where the last id repeats. */
  lemma GroupUrlInjective(a: string, b: string)
    ensures GroupUrl(a) == GroupUrl(b) <==> a == b
  {
    if GroupUrl(a) == GroupUrl(b) {
      assert |a| == |b|;
      assert a == GroupUrl(a)[|GroupUrlPrefix|..|GroupUrlPrefix| + |a|];
      assert b == GroupUrl(b)[|GroupUrlPrefix|..|GroupUrlPrefix| + |b|];
    }
  }

  /** With a last id that occurs nowhere earlier, `GetGroups` posts
      ceil(n / 20) envelopes for n ids, and their urls are the ids' urls
      in order. */
  lemma GroupEnvelopes(groupIds: seq<string>)
    requires forall j :: 0 <= j < |groupIds| - 1 ==> groupIds[j] != groupIds[|groupIds| - 1]
    ensures |Envelopes(GroupUrls(groupIds), "GET", None)| == (|groupIds| + 19) / 20
    ensures EnvelopeUrls(Envelopes(GroupUrls(groupIds), "GET", None)) == GroupUrls(groupIds)
  {
    var urls := GroupUrls(groupIds);
    forall j | 0 <= j < |urls| - 1
      ensures urls[j] != urls[|urls| - 1]
    {
      GroupUrlInjective(groupIds[j], groupIds[|groupIds| - 1]);
    }
    EnvelopeCount(urls, "GET", None);
    EnvelopesCoverUrls(urls, "GET", None);
  }

  /** `response["value"].FirstOrDefault()`: the first child of the body's
      `value`, `None` when it has none; a body without `value` hands
      `null` to `FirstOrDefault`, which throws. */
  function FirstOfValue(body: Json): Result<Option<Token>, Fault> {
    var value :- Index(body, "value");
    if value.None? then Failure(ArgumentNull)
    else
      var cs := Children(value.value);
      Success(if |cs| == 0 then None else Some(cs[0]))
  }

  function FirstsOf(bodies: seq<Json>): (r: Result<seq<Option<Token>>, Fault>)
    ensures r.Success? ==> |r.value| == |bodies|
    ensures r.Success? ==> forall i :: 0 <= i < |bodies| ==> FirstOfValue(bodies[i]) == Success(r.value[i])
    ensures r.Failure? ==> exists i :: 0 <= i < |bodies| && FirstOfValue(bodies[i]).Failure?
  {
    if |bodies| == 0 then
      Success([])
    else
      match FirstOfValue(bodies[0])
      case Failure(f) => Failure(f)
      case Success(g) =>
        match FirstsOf(bodies[1..])
        case Failure(f) =>
          var i :| 0 <= i < |bodies[1..]| && FirstOfValue(bodies[1..][i]).Failure?;
          assert bodies[i + 1] == bodies[1..][i];
          Failure(f)
        case Success(rest) =>
          assert forall i :: 0 < i < |bodies| ==> bodies[i] == bodies[1..][i - 1];
          Success([g] + rest)
  }

  /** `GetGroups(groupIds)`: batch one GET per id, then take the first
      element of each body's `value`. */
  function GetGroups(c: Credentials, groupIds: seq<string>, replies: seq<Answer>): (run: Run<seq<Option<Token>>>)
    ensures run.calls == Batch(c, GroupUrls(groupIds), "GET", None, replies).calls
    ensures run.ending.Done? <==>
              var b := Batch(c, GroupUrls(groupIds), "GET", None, replies).ending;
              b.Done? && forall i :: 0 <= i < |b.value| ==> FirstOfValue(b.value[i]).Success?
    ensures run.ending.Done? ==>
              var bodies := Batch(c, GroupUrls(groupIds), "GET", None, replies).ending.value;
              |run.ending.value| == |bodies|
              && forall i :: 0 <= i < |bodies| ==> FirstOfValue(bodies[i]) == Success(run.ending.value[i])
  {
    var run := Batch(c, GroupUrls(groupIds), "GET", None, replies);
    match run.ending
    case Failed(f) => Run(run.calls, Failed(f))
    case OutOfReplies => Run(run.calls, OutOfReplies)
    case Done(bodies) =>
      match FirstsOf(bodies)
      case Failure(f) => Run(run.calls, Failed(f))
      case Success(groups) => Run(run.calls, Done(groups))
  }
}

=== FILE: http_service.dfy ===
/** `HttpService.GetResponseAsync`: merge the caller's headers into the
    client's defaults, send the request, read the body, and decide whether
    to fail, retry (after a sleep) or return. The network and the sleep are
    left to the caller: `Classify` is the decision for one response, and
    `Send` runs that decision over a finite script of responses. */
module HttpService {
  import opened Wrappers
  import opened Numbers
  import opened Json

  const JsonMediaType: string := "application/json"

  /** The default seconds to wait when no throttled sub-response gives a
      positive `Retry-After`. */
  const DefaultBatchRetryAfter: int := 5000

  datatype Method = Get | Post | Put | Patch | Delete

  /** A header name with its values, as `HttpRequestHeaders` enumerates it. */
  type Header = (string, seq<string>)

  /** The client's default request headers. */
  type HeaderMap = map<string, seq<string>>

  /** The arguments of `GetResponseAsync`; the body is the JSON value that
      its text encodes. */
  datatype Request = Request(
    url: string,
    verb: Method,
    headers: Option<seq<Header>>,
    body: Option<Json>,
    contentType: Option<string>)

  datatype Content = Content(body: Json, mediaType: string)

  /** What one attempt puts on the wire. */
  datatype Wire = Wire(url: string, verb: Method, headers: HeaderMap, content: Option<Content>)

  /** One response as the client receives it. `parsed` is what
      `JToken.Parse(content)` yields, `None` when the text is not JSON;
      `mediaType` is the `Content-Type` media type, `None` when absent. */
  datatype RawResponse = RawResponse(status: int, mediaType: Option<string>, content: string, parsed: Option<Json>)

  /** What `GetResponseAsync` returns: the body document, or (for 202 and
      204) the response object itself serialised, which the model keeps
      opaque apart from its status. */
  datatype Reply = Document(doc: Json) | ResponseSnapshot(status: int)

  /** The one-step decision for a response. */
  datatype Decision =
    | Fail(fault: Fault)
    | Retry(sleepMillis: Option<int>)
    | ReturnBody(body: Json)
    | ReturnPlaceholder

  // ---------------------------------------------------------------------
  // Header merge

  /** `HttpHeaders.Add`: a header already present gains the new values. */
  function AddHeader(d: HeaderMap, name: string, values: seq<string>): HeaderMap {
    if name in d then d[name := d[name] + values] else d[name := values]
  }

  /** Remove the header if present, then add it. */
  function MergeOne(d: HeaderMap, h: Header): HeaderMap {
    var cleared := if h.0 in d then d - {h.0} else d;
    AddHeader(cleared, h.0, h.1)
  }

  ghost predicate LastOf(hs: seq<Header>, i: int) {
    0 <= i < |hs| && forall j :: i < j < |hs| ==> hs[j].0 != hs[i].0
  }

  /** The header loop of `GetResponseAsync`, run to completion. */
  function MergeHeaders(d: HeaderMap, hs: seq<Header>): HeaderMap
    decreases |hs|
  {
    if |hs| == 0 then d else MergeHeaders(MergeOne(d, hs[0]), hs[1..])
  }

  /** After the merge every supplied name holds the values of its last
      occurrence, every other default header is untouched, and no other
      name appears. */
  lemma {:induction false} MergeHeadersSpec(d: HeaderMap, hs: seq<Header>)
    ensures MergeHeaders(d, hs).Keys == d.Keys + set i | 0 <= i < |hs| :: hs[i].0
    ensures forall i :: LastOf(hs, i) ==> MergeHeaders(d, hs)[hs[i].0] == hs[i].1
    ensures forall k :: k in d && (forall i :: 0 <= i < |hs| ==> hs[i].0 != k) ==> MergeHeaders(d, hs)[k] == d[k]
    decreases |hs|
  {
    if |hs| > 0 {
      var d1 := MergeOne(d, hs[0]);
      var tail := hs[1..];
      var r := MergeHeaders(d1, tail);
      assert r == MergeHeaders(d, hs);
      MergeHeadersSpec(d1, tail);
      assert d1.Keys == d.Keys + {hs[0].0};
      assert d1[hs[0].0] == hs[0].1;
      assert (set i | 0 <= i < |hs| :: hs[i].0) == {hs[0].0} + set i | 0 <= i < |tail| :: tail[i].0 by {
        forall i | 0 <= i < |hs|
          ensures hs[i].0 in {hs[0].0} + set i | 0 <= i < |tail| :: tail[i].0
        {
          if i > 0 {
            assert tail[i - 1].0 == hs[i].0;
          }
        }
      }
      forall i | LastOf(hs, i)
        ensures r[hs[i].0] == hs[i].1
      {
        if i == 0 {
          assert forall j :: 0 <= j < |tail| ==> tail[j].0 != hs[0].0 by {
            forall j | 0 <= j < |tail|
              ensures tail[j].0 != hs[0].0
            {
              assert tail[j] == hs[j + 1];
            }
          }
        } else {
          assert tail[i - 1] == hs[i];
          assert LastOf(tail, i - 1) by {
            forall j | i - 1 < j < |tail|
              ensures tail[j].0 != tail[i - 1].0
            {
              assert tail[j] == hs[j + 1];
            }
          }
        }
      }
      forall k | k in d && (forall i :: 0 <= i < |hs| ==> hs[i].0 != k)
        ensures r[k] == d[k]
      {
        assert hs[0].0 != k;
        assert forall j :: 0 <= j < |tail| ==> tail[j].0 != k by {
          forall j | 0 <= j < |tail|
            ensures tail[j].0 != k
          {
            assert tail[j] == hs[j + 1];
          }
        }
      }
    }
  }

  /** The headers in force for an attempt (`null` headers leave the
      defaults alone). */
  function ApplyHeaders(d: HeaderMap, headers: Option<seq<Header>>): HeaderMap {
    match headers
    case None => d
    case Some(hs) => MergeHeaders(d, hs)
  }

  lemma LastOccurrence(hs: seq<Header>, k: string) returns (i: int)
    requires exists j :: 0 <= j < |hs| && hs[j].0 == k
    ensures LastOf(hs, i) && hs[i].0 == k
  {
    i := |hs| - 1;
    while hs[i].0 != k
      invariant 0 <= i < |hs|
      invariant forall j :: i < j < |hs| ==> hs[j].0 != k
      invariant exists j :: 0 <= j <= i && hs[j].0 == k
      decreases i
    {
      i := i - 1;
    }
  }

  /** Merging the same headers again changes nothing, so a retry runs with
      the same headers as the first attempt. */
  lemma MergeIdempotent(d: HeaderMap, hs: seq<Header>)
    ensures MergeHeaders(MergeHeaders(d, hs), hs) == MergeHeaders(d, hs)
  {
    var once := MergeHeaders(d, hs);
    var twice := MergeHeaders(once, hs);
    MergeHeadersSpec(d, hs);
    MergeHeadersSpec(once, hs);
    forall k | k in twice
      ensures k in once && twice[k] == once[k]
    {
      if exists j :: 0 <= j < |hs| && hs[j].0 == k {
        var i := LastOccurrence(hs, k);
      }
    }
  }

  /** The request one attempt sends: GET and DELETE carry no content; a
      body is sent as `contentType`, `application/json` by default. */
  function WireOf(headers: HeaderMap, req: Request): (w: Wire)
    ensures w.url == req.url && w.verb == req.verb && w.headers == headers
    ensures w.content.Some? <==> req.body.Some? && req.verb in {Post, Put, Patch}
    ensures w.content.Some? ==> w.content.value.body == req.body.value
    ensures w.content.Some? && req.contentType.None? ==> w.content.value.mediaType == JsonMediaType
    ensures w.content.Some? && req.contentType.Some? ==> w.content.value.mediaType == req.contentType.value
  {
    var content :=
      if req.body.Some? && req.verb in {Post, Put, Patch} then
        Some(Content(req.body.value, req.contentType.GetOr(JsonMediaType)))
      else
        None;
    Wire(req.url, req.verb, headers, content)
  }

  /** A `tchar` of section 3.2.6 of RFC 7230. */
  predicate IsTokenChar(c: char) {
    ('a' <= c <= 'z') || ('A' <= c <= 'Z') || ('0' <= c <= '9') || c in "!#$%&'*+-.^_`|~"
  }

  /** What `StringContent` accepts as its media type: `type/subtype`, two
      non-empty tokens and nothing else. The typed `MediaTypeHeaderValue`
      constructor rejects white space around the slash and parameters. */
  predicate IsMediaType(m: string) {
    exists k :: 0 < k < |m| - 1 && m[k] == '/' && forall i :: 0 <= i < |m| && i != k ==> IsTokenChar(m[i])
  }

  /** A media type holds exactly one slash and no white space, so
      "application /json" makes the content throw. */
  lemma MediaTypeShape(m: string)
    ensures IsMediaType(m) ==> ' ' !in m && '\t' !in m
    ensures IsMediaType(m) ==> forall i, j :: 0 <= i < j < |m| && m[i] == '/' ==> m[j] != '/'
  {
  }

  /** Line 45 of `GetResponseAsync`: content is built, for every method,
      whenever a body is given, and building it throws for a content type
      that is not a media type. */
  predicate ContentAccepted(req: Request) {
    req.body.None? || IsMediaType(req.contentType.GetOr(JsonMediaType))
  }

  /** A body sent with white space before the slash of its content type
      throws while the content is built, before any request goes out. */
  lemma SpacedMediaTypeRejected(defaults: HeaderMap, responses: seq<RawResponse>)
    ensures var req := Request("u", Post, None, Some(JNull), Some("application /json"));
            Send(defaults, req, responses).issued == [] && Send(defaults, req, responses).outcome == Raised(BadMediaType)
  {
    MediaTypeShape("application /json");
    assert "application /json"[11] == ' ';
  }

  /** The default content type is a media type, so a request without a
      content type is never rejected; an empty one always is. */
  lemma DefaultContentTypeAccepted(req: Request)
    ensures req.contentType.None? ==> ContentAccepted(req)
    ensures req.body.Some? && req.contentType == Some("") ==> !ContentAccepted(req)
  {
    var m := JsonMediaType;
    assert m[11] == '/';
    assert forall i :: 0 <= i < |m| && i != 11 ==> IsTokenChar(m[i]);
  }

  // ---------------------------------------------------------------------
  // Reading the body

  /** `HttpResponseMessage.IsSuccessStatusCode`. */
  predicate IsSuccessStatus(status: int) {
    200 <= status <= 299
  }

  /** The document a successful body reads as: the parsed JSON, or the
      raw text as a string when it does not parse. */
  function BodyOf(r: RawResponse): Json {
    r.parsed.GetOr(JStr(r.content))
  }

  /** `ReadResponseBody`. */
  function ReadResponseBody(r: RawResponse): (b: Result<Json, Fault>)
    ensures b.Success? <==> IsSuccessStatus(r.status)
    ensures !IsSuccessStatus(r.status) ==> b == Failure(HttpError(r.content))
    ensures b.Success? && r.parsed.Some? ==> b.value == r.parsed.value
    ensures b.Success? && r.parsed.None? ==> b.value == JStr(r.content)
  {
    if IsSuccessStatus(r.status) then Success(BodyOf(r)) else Failure(HttpError(r.content))
  }

  /** `ContentIsJson`: a missing `Content-Type` throws. */
  function ContentIsJson(r: RawResponse): (c: Result<bool, Fault>)
    ensures c.Success? <==> r.mediaType.Some?
    ensures c.Success? ==> (c.value <==> r.mediaType.value == JsonMediaType)
  {
    match r.mediaType
    case None => Failure(NullReference)
    case Some(m) => Success(m == JsonMediaType)
  }

  // ---------------------------------------------------------------------
  // Throttling inside a batch reply

  /** The part of `GetThrottledResponses` evaluated eagerly: is the
      body's first child the `responses` property, and if so the
      sub-responses under it. `First` on an empty container is null and
      on a scalar throws; an array's first child has path "[0]". */
  function BatchCandidates(body: Json): (r: Result<seq<Token>, Fault>)
    ensures r.Success? && r.value != [] ==> body.JObj? && |body.fields| > 0 && body.fields[0].0 == "responses"
  {
    match body
    case JObj(fields) =>
      if |fields| == 0 then Failure(NullReference)
      else if fields[0].0 == "responses" then Success(Children(fields[0].1))
      else Success([])
    case JArr(items) =>
      if |items| == 0 then Failure(NullReference) else Success([])
    case _ => Failure(BadAccess)
  }

  /** The `Where` filter of `GetThrottledResponses` for one sub-response:
      a `status` whose text parses to 429. Indexing a sub-response that is
      not an object throws. */
  function IsThrottled(t: Token): Result<bool, Fault> {
    match IndexToken(t, "status")
    case Failure(f) => Failure(f)
    case Success(None) => Success(false)
    case Success(Some(s)) => Success(IntOf(s) == Some(429))
  }

  /** `BatchFailed`: `Any()` over the deferred filter, which stops at the
      first throttled sub-response and lets a failed index escape, since
      the `try` in `GetThrottledResponses` only wraps building the query. */
  function AnyThrottled(ts: seq<Token>): Result<bool, Fault> {
    if |ts| == 0 then
      Success(false)
    else
      match IsThrottled(ts[0])
      case Failure(f) => Failure(f)
      case Success(true) => Success(true)
      case Success(false) => AnyThrottled(ts[1..])
  }

  /** `ToList()` over the deferred filter: every sub-response is indexed. */
  function ThrottledList(ts: seq<Token>): Result<seq<Token>, Fault> {
    if |ts| == 0 then
      Success([])
    else
      var keep :- IsThrottled(ts[0]);
      var rest :- ThrottledList(ts[1..]);
      Success(if keep then [ts[0]] + rest else rest)
  }

  function BatchFailed(body: Json): Result<bool, Fault> {
    var ts :- BatchCandidates(body);
    AnyThrottled(ts)
  }

  /** `int.Parse(response["headers"]["Retry-After"].ToString())`. */
  function RetryAfterOf(t: Token): Result<int, Fault> {
    var headers :- IndexToken(t, "headers");
    if headers.None? then Failure(NullReference)
    else
      var v :- Index(headers.value, "Retry-After");
      if v.None? then Failure(NullReference)
      else
        match IntOf(v.value)
        case Some(n) => Success(n)
        case None => Failure(BadNumber)
  }

  /** Why a `Retry-After` cannot be read. A missing `headers` or a missing
      value is `null` used as a receiver; a sub-response or `headers` that
      is not an object makes the indexer throw; only a present value
      reaches `int.Parse`. */
  lemma RetryAfterFaults(t: Token)
    ensures !(t.Item? && t.doc.JObj?) ==> RetryAfterOf(t) == Failure(BadAccess)
    ensures t.Item? && t.doc.JObj? ==>
              var h := Lookup(t.doc.fields, "headers");
              && (h.None? ==> RetryAfterOf(t) == Failure(NullReference))
              && (h.Some? && !h.value.JObj? ==> RetryAfterOf(t) == Failure(BadAccess))
              && (h.Some? && h.value.JObj? && Lookup(h.value.fields, "Retry-After").None? ==>
                    RetryAfterOf(t) == Failure(NullReference))
              && (h.Some? && h.value.JObj? && Lookup(h.value.fields, "Retry-After").Some? ==>
                    var v := Lookup(h.value.fields, "Retry-After").value;
                    RetryAfterOf(t) == if IntOf(v).Some? then Success(IntOf(v).value) else Failure(BadNumber))
  {
  }

  /** The selector of `Max`, applied to every throttled sub-response. */
  function RetryAfters(ts: seq<Token>): (r: Result<seq<int>, Fault>)
    ensures r.Success? ==> |r.value| == |ts|
    ensures r.Success? <==> forall i :: 0 <= i < |ts| ==> RetryAfterOf(ts[i]).Success?
    ensures r.Success? ==> forall i :: 0 <= i < |ts| ==> r.value[i] == RetryAfterOf(ts[i]).value
  {
    if |ts| == 0 then
      Success([])
    else
      match RetryAfterOf(ts[0])
      case Failure(f) => Failure(f)
      case Success(v) =>
        match RetryAfters(ts[1..])
        case Failure(f) =>
          assert !RetryAfterOf(ts[1..][0]).Success? || exists i :: 0 <= i < |ts[1..]| && !RetryAfterOf(ts[1..][i]).Success?;
          Failure(f)
        case Success(vs) => Success([v] + vs)
  }

  function MaxOf(values: seq<int>): (m: int)
    requires |values| > 0
    ensures m in values
    ensures forall i :: 0 <= i < |values| ==> values[i] <= m
  {
    if |values| == 1 then
      values[0]
    else
      var m := MaxOf(values[1..]);
      assert forall i :: 1 <= i < |values| ==> values[i] == values[1..][i - 1];
      if values[0] > m then values[0] else m
  }

  /** The seconds `GetBatchRetryAfter` settles on: the largest
      `Retry-After` when that is positive, otherwise the default. */
  function BatchRetryAfter(values: seq<int>): (r: int)
    ensures r > 0
    ensures forall i :: 0 <= i < |values| ==> values[i] <= r
    ensures (exists i :: 0 <= i < |values| && values[i] > 0) ==> r in values
    ensures (forall i :: 0 <= i < |values| ==> values[i] <= 0) ==> r == DefaultBatchRetryAfter
  {
    var retryAfter := if |values| > 0 then MaxOf(values) else 0;
    if retryAfter > 0 then retryAfter else DefaultBatchRetryAfter
  }

  function GetBatchRetryAfter(body: Json): Result<int, Fault> {
    var ts :- BatchCandidates(body);
    var throttled :- ThrottledList(ts);
    var values :- RetryAfters(throttled);
    Success(BatchRetryAfter(values))
  }

  /** `status == 200 && ContentIsJson(response) && BatchFailed(body)`,
      evaluated left to right. */
  function BatchFailedCheck(r: RawResponse, body: Json): (b: Result<bool, Fault>)
    ensures r.status != 200 ==> b == Success(false)
    ensures b == Success(true) ==> r.status == 200 && r.mediaType == Some(JsonMediaType)
    ensures r.status == 200 && r.mediaType.None? ==> b == Failure(NullReference)
    ensures r.status == 200 && r.mediaType.Some? && r.mediaType.value != JsonMediaType ==> b == Success(false)
  {
    if r.status != 200 then
      Success(false)
    else
      match ContentIsJson(r)
      case Failure(f) => Failure(f)
      case Success(isJson) => if isJson then BatchFailed(body) else Success(false)
  }

  /** The milliseconds slept for a batch retry: seconds times 1000 in
      32-bit arithmetic. */
  function SleepMillis(seconds: int): int {
    Wrap32(seconds * 1000)
  }

  /** The throttled branch: work out the delay and sleep. `Thread.Sleep`
      rejects a negative timeout other than -1 (wait forever), and a
      wrapped multiple of 1000 is never -1. */
  function BatchRetry(body: Json): (d: Decision)
    ensures d.Fail? || (d.Retry? && d.sleepMillis.Some? && d.sleepMillis.value >= 0)
  {
    match GetBatchRetryAfter(body)
    case Failure(f) => Fail(f)
    case Success(seconds) =>
      var ms := SleepMillis(seconds);
      if ms < -1 then
        Fail(SleepOutOfRange)
      else if ms == -1 then
        WrappedThousandsNeverMinusOne(seconds);
        assert false;
        Fail(SleepOutOfRange)
      else
        Retry(Some(ms))
  }

  // ---------------------------------------------------------------------
  // The decision

  /** One pass of `GetResponseAsync` after the response has arrived.
      The body is read first, and reading throws for any status outside
      2xx, so 429, 502 and 504 fail before the retry test is reached. */
  function Classify(r: RawResponse): (d: Decision)
    ensures !IsSuccessStatus(r.status) ==> d == Fail(HttpError(r.content))
    ensures d.ReturnPlaceholder? <==> r.status == 202 || r.status == 204
    ensures d.Retry? ==> r.status == 200 && r.mediaType == Some(JsonMediaType)
    ensures d.Retry? ==> d.sleepMillis.Some? && d.sleepMillis.value >= 0
    ensures d.ReturnBody? ==> d.body == BodyOf(r)
    ensures IsSuccessStatus(r.status) && r.status !in {200, 202, 204} ==> d == ReturnBody(BodyOf(r))
    ensures r.status == 200 && r.mediaType.Some? && r.mediaType.value != JsonMediaType ==> d == ReturnBody(BodyOf(r))
    ensures r.status == 200 && r.mediaType.None? ==> d == Fail(NullReference)
  {
    match ReadResponseBody(r)
    case Failure(f) => Fail(f)
    case Success(body) =>
      match BatchFailedCheck(r, body)
      case Failure(f) => Fail(f)
      case Success(batchFailed) =>
        var throttled := r.status == 429 || batchFailed;
        if throttled || r.status == 502 || r.status == 504 then
          if throttled then
            if batchFailed then
              BatchRetry(body)
            else
              // The `Retry-After` response header path: a 429 never gets here.
              assert false;
              Fail(NullReference)
          else
            Retry(None)
        else if r.status != 202 && r.status != 204 then
          ReturnBody(body)
        else
          ReturnPlaceholder
  }

  // ---------------------------------------------------------------------
  // The retry loop over a finite script

  datatype Outcome = Settled(reply: Reply) | Raised(fault: Fault) | OutOfResponses

  /** What a run of `GetResponseAsync` did: the request of every attempt,
      the sleeps between them, how it ended, and the client's default
      headers afterwards. */
  datatype SendRun = SendRun(issued: seq<Wire>, sleeps: seq<int>, outcome: Outcome, headers: HeaderMap)

  /** The outcome a final (non-retry) decision hands back. */
  function Settle(d: Decision, status: int): Outcome
    requires !d.Retry?
  {
    match d
    case Fail(f) => Raised(f)
    case ReturnBody(b) => Settled(Document(b))
    case ReturnPlaceholder => Settled(ResponseSnapshot(status))
  }

  /** The sleep a decision asks for before the next attempt. */
  function SleepOf(d: Decision): seq<int> {
    if d.Retry? && d.sleepMillis.Some? then [d.sleepMillis.value] else []
  }

  /** The recursion of `GetResponseAsync`, bounded by the script
      `responses` (one response per attempt) and written for any decision
      function: merge the headers, build the content, send, decide, and
      either settle or recurse with the same arguments. A request sent when
      the script has no response left is recorded, unanswered. */
  function Attempts(defaults: HeaderMap, req: Request, responses: seq<RawResponse>,
                    decide: RawResponse -> Decision): (run: SendRun)
    ensures |run.issued| <= |responses| + 1
    ensures ContentAccepted(req) <==> |run.issued| > 0
    ensures !ContentAccepted(req) ==> run.sleeps == [] && run.outcome == Raised(BadMediaType)
    decreases |responses|
  {
    var headers := ApplyHeaders(defaults, req.headers);
    var wire := WireOf(headers, req);
    if !ContentAccepted(req) then
      SendRun([], [], Raised(BadMediaType), headers)
    else if |responses| == 0 then
      SendRun([wire], [], OutOfResponses, headers)
    else
      var d := decide(responses[0]);
      if d.Retry? then
        var rest := Attempts(headers, req, responses[1..], decide);
        SendRun([wire] + rest.issued, SleepOf(d) + rest.sleeps, rest.outcome, rest.headers)
      else
        SendRun([wire], [], Settle(d, responses[0].status), headers)
  }

  /** `GetResponseAsync` answered by `responses`. */
  function Send(defaults: HeaderMap, req: Request, responses: seq<RawResponse>): SendRun {
    Attempts(defaults, req, responses, Classify)
  }

  /** Every attempt sends the identical request: same url, method,
      headers, body and content type. */
  lemma {:induction false} AttemptsRepeatRequest(defaults: HeaderMap, req: Request, responses: seq<RawResponse>,
                                                 decide: RawResponse -> Decision)
    ensures forall w :: w in Attempts(defaults, req, responses, decide).issued ==>
              w == WireOf(ApplyHeaders(defaults, req.headers), req)
    decreases |responses|
  {
    if |responses| > 0 && ContentAccepted(req) {
      var headers := ApplyHeaders(defaults, req.headers);
      if req.headers.Some? {
        MergeIdempotent(defaults, req.headers.value);
      }
      assert ApplyHeaders(headers, req.headers) == headers;
      AttemptsRepeatRequest(headers, req, responses[1..], decide);
      var run := Attempts(defaults, req, responses, decide);
      var wire := WireOf(headers, req);
      if decide(responses[0]).Retry? {
        var rest := Attempts(headers, req, responses[1..], decide);
        assert run.issued == [wire] + rest.issued;
        assert WireOf(ApplyHeaders(headers, req.headers), req) == wire;
      } else {
        assert run.issued == [wire];
      }
    }
  }

  /** Once the content is accepted, the run retries on every response
      before the last one it reads and stops at the first response that is
      not a retry, whose decision it hands back; it runs out, with one
      request more than responses, only when every response says retry. */
  lemma {:induction false} AttemptsStopAtFirstSettled(defaults: HeaderMap, req: Request, responses: seq<RawResponse>,
                                                      decide: RawResponse -> Decision)
    ensures ContentAccepted(req) ==>
            var run := Attempts(defaults, req, responses, decide);
            var n := |run.issued|;
            && 0 < n
            && (forall i :: 0 <= i < n - 1 ==> i < |responses| && decide(responses[i]).Retry?)
            && (run.outcome.OutOfResponses? <==> n == |responses| + 1)
            && (!run.outcome.OutOfResponses? ==>
                  n <= |responses| && !decide(responses[n - 1]).Retry?
                  && run.outcome == Settle(decide(responses[n - 1]), responses[n - 1].status))
    decreases |responses|
  {
    if ContentAccepted(req) && |responses| > 0 && decide(responses[0]).Retry? {
      var headers := ApplyHeaders(defaults, req.headers);
      var tail := responses[1..];
      AttemptsStopAtFirstSettled(headers, req, tail, decide);
      assert forall i :: 0 < i < |responses| ==> responses[i] == tail[i - 1];
    }
  }

  /** The sleeps the decisions for the first `n` responses ask for. */
  function SleepsBefore(rs: seq<RawResponse>, n: nat, decide: RawResponse -> Decision): seq<int>
    requires n <= |rs|
  {
    if n == 0 then [] else SleepOf(decide(rs[0])) + SleepsBefore(rs[1..], n - 1, decide)
  }

  /** The sleeps are those the retried responses ask for, in order: one
      per response before the last request. */
  lemma {:induction false} AttemptsSleeps(defaults: HeaderMap, req: Request, responses: seq<RawResponse>,
                                          decide: RawResponse -> Decision)
    ensures var run := Attempts(defaults, req, responses, decide);
            ContentAccepted(req) ==> |run.issued| - 1 <= |responses| && run.sleeps == SleepsBefore(responses, |run.issued| - 1, decide)
    decreases |responses|
  {
    if ContentAccepted(req) && |responses| > 0 && decide(responses[0]).Retry? {
      var headers := ApplyHeaders(defaults, req.headers);
      AttemptsSleeps(headers, req, responses[1..], decide);
    }
  }

  /** With the library's own decision a 502 or 504 is never retried:
      one request goes out and the call throws with the response text
      (unless building the content threw before anything was sent). */
  lemma SendNeverRetriesGatewayErrors(defaults: HeaderMap, req: Request, responses: seq<RawResponse>)
    requires |responses| > 0 && responses[0].status in {502, 504}
    ensures ContentAccepted(req) ==> Send(defaults, req, responses).issued == [WireOf(ApplyHeaders(defaults, req.headers), req)]
    ensures ContentAccepted(req) ==> Send(defaults, req, responses).outcome == Raised(HttpError(responses[0].content))
    ensures !ContentAccepted(req) ==> Send(defaults, req, responses).issued == []
  {
  }

  // ---------------------------------------------------------------------
  // Throttling, stated directly on the reply

  /** A sub-response reports 429: an object whose `status` reads as 429. */
  predicate Status429(sub: Json) {
    sub.JObj? && var s := Lookup(sub.fields, "status"); s.Some? && IntOf(s.value) == Some(429)
  }

  /** The integer `Retry-After` header of a sub-response, if it has one. */
  function RetryAfterValue(sub: Json): Option<int> {
    if !sub.JObj? then None
    else
      match Lookup(sub.fields, "headers")
      case None => None
      case Some(h) =>
        if !h.JObj? then None
        else
          match Lookup(h.fields, "Retry-After")
          case None => None
          case Some(v) => IntOf(v)
  }

  /** Every sub-response is an object (so every string index succeeds). */
  predicate AllObjects(ts: seq<Token>) {
    forall i :: 0 <= i < |ts| ==> ts[i].Item? && ts[i].doc.JObj?
  }

  /** A 200 JSON reply whose first property is `responses`. */
  predicate IsBatchReply(r: RawResponse) {
    && r.status == 200
    && r.mediaType == Some(JsonMediaType)
    && r.parsed.Some? && r.parsed.value.JObj?
    && |r.parsed.value.fields| > 0
    && r.parsed.value.fields[0].0 == "responses"
  }

  function SubResponses(r: RawResponse): seq<Token>
    requires IsBatchReply(r)
  {
    Children(r.parsed.value.fields[0].1)
  }

  /** A batch reply that throttles: well-formed sub-responses, at least
      one 429, and an integer `Retry-After` on every 429. */
  predicate ThrottledBatch(r: RawResponse) {
    && IsBatchReply(r)
    && var subs := SubResponses(r);
    && AllObjects(subs)
    && (exists i :: 0 <= i < |subs| && Status429(subs[i].doc))
    && (forall i :: 0 <= i < |subs| && Status429(subs[i].doc) ==> RetryAfterValue(subs[i].doc).Some?)
  }

  /** `s` is the batch delay in seconds for `subs`: the largest
      `Retry-After` among the 429s when that is positive, else 5000. */
  ghost predicate IsBatchDelay(subs: seq<Token>, s: int)
    requires AllObjects(subs)
    requires forall i :: 0 <= i < |subs| && Status429(subs[i].doc) ==> RetryAfterValue(subs[i].doc).Some?
  {
    && s > 0
    && (forall i :: 0 <= i < |subs| && Status429(subs[i].doc) ==> RetryAfterValue(subs[i].doc).value <= s)
    && ((exists i :: 0 <= i < |subs| && Status429(subs[i].doc) && RetryAfterValue(subs[i].doc).value == s)
        || (s == DefaultBatchRetryAfter
            && forall i :: 0 <= i < |subs| && Status429(subs[i].doc) ==> RetryAfterValue(subs[i].doc).value <= 0))
  }

  lemma IsThrottledObject(t: Token)
    requires t.Item? && t.doc.JObj?
    ensures IsThrottled(t).Success? && (IsThrottled(t).value <==> Status429(t.doc))
    ensures RetryAfterOf(t).Success? <==> RetryAfterValue(t.doc).Some?
    ensures RetryAfterOf(t).Success? ==> RetryAfterOf(t).value == RetryAfterValue(t.doc).value
  {
  }

  /** Over well-formed sub-responses `Any()` answers whether one is a 429. */
  lemma {:induction false} AnyThrottledSpec(ts: seq<Token>)
    requires AllObjects(ts)
    ensures AnyThrottled(ts).Success?
    ensures AnyThrottled(ts).value <==> exists i :: 0 <= i < |ts| && Status429(ts[i].doc)
    decreases |ts|
  {
    if |ts| > 0 {
      IsThrottledObject(ts[0]);
      AnyThrottledSpec(ts[1..]);
      assert forall i :: 0 < i < |ts| ==> ts[i] == ts[1..][i - 1];
    }
  }

  /** Over well-formed sub-responses the filter keeps exactly the 429s. */
  lemma {:induction false} ThrottledListSpec(ts: seq<Token>)
    requires AllObjects(ts)
    ensures ThrottledList(ts).Success?
    ensures AllObjects(ThrottledList(ts).value)
    ensures forall t :: t in ThrottledList(ts).value <==> t in ts && Status429(t.doc)
    decreases |ts|
  {
    if |ts| > 0 {
      var tail := ts[1..];
      IsThrottledObject(ts[0]);
      assert AllObjects(tail) by {
        assert forall i :: 0 <= i < |tail| ==> tail[i] == ts[i + 1];
      }
      ThrottledListSpec(tail);
      var rest := ThrottledList(tail).value;
      assert ts == [ts[0]] + tail;
      if Status429(ts[0].doc) {
        assert ThrottledList(ts).value == [ts[0]] + rest;
      } else {
        assert ThrottledList(ts).value == rest;
      }
    }
  }

  /** One sub-response that is not an object makes the enumeration throw,
      whether `Any()` meets it first or `ToList()` does afterwards. */
  lemma {:induction false} MalformedSubResponseThrows(ts: seq<Token>)
    requires !AllObjects(ts)
    ensures ThrottledList(ts) == Failure(BadAccess)
    ensures AnyThrottled(ts) == Failure(BadAccess) || AnyThrottled(ts) == Success(true)
    decreases |ts|
  {
    if ts[0].Item? && ts[0].doc.JObj? {
      IsThrottledObject(ts[0]);
      var k :| 0 <= k < |ts| && !(ts[k].Item? && ts[k].doc.JObj?);
      assert ts[1..][k - 1] == ts[k];
      MalformedSubResponseThrows(ts[1..]);
    }
  }

  /** The max/default rule over the 429s' values, read back over the
      sub-responses themselves. */
  lemma DelayFromValues(subs: seq<Token>, list: seq<Token>, values: seq<int>)
    requires AllObjects(subs)
    requires forall i :: 0 <= i < |subs| && Status429(subs[i].doc) ==> RetryAfterValue(subs[i].doc).Some?
    requires AllObjects(list)
    requires forall t :: t in list <==> t in subs && Status429(t.doc)
    requires |values| == |list|
    requires forall j :: 0 <= j < |list| ==> RetryAfterValue(list[j].doc).Some? && values[j] == RetryAfterValue(list[j].doc).value
    ensures IsBatchDelay(subs, BatchRetryAfter(values))
  {
    var s := BatchRetryAfter(values);
    forall i | 0 <= i < |subs| && Status429(subs[i].doc)
      ensures RetryAfterValue(subs[i].doc).value <= s
    {
      assert subs[i] in list;
      var j :| 0 <= j < |list| && list[j] == subs[i];
    }
    if exists j :: 0 <= j < |values| && values[j] > 0 {
      var j :| 0 <= j < |values| && values[j] == s;
      assert list[j] in subs;
      var i :| 0 <= i < |subs| && subs[i] == list[j];
      assert Status429(subs[i].doc) && RetryAfterValue(subs[i].doc).value == s;
    } else {
      forall i | 0 <= i < |subs| && Status429(subs[i].doc)
        ensures RetryAfterValue(subs[i].doc).value <= 0
      {
        assert subs[i] in list;
        var j :| 0 <= j < |list| && list[j] == subs[i];
      }
    }
  }

  /** The delay `GetBatchRetryAfter` computes for a throttled batch is the
      batch delay. */
  lemma GetBatchRetryAfterSpec(r: RawResponse)
    requires ThrottledBatch(r)
    ensures GetBatchRetryAfter(r.parsed.value).Success?
    ensures IsBatchDelay(SubResponses(r), GetBatchRetryAfter(r.parsed.value).value)
  {
    var subs := SubResponses(r);
    assert BatchCandidates(r.parsed.value) == Success(subs);
    ThrottledListSpec(subs);
    var list := ThrottledList(subs).value;
    forall i | 0 <= i < |list|
      ensures RetryAfterValue(list[i].doc).Some?
      ensures RetryAfterOf(list[i]).Success? && RetryAfterOf(list[i]).value == RetryAfterValue(list[i].doc).value
    {
      assert list[i] in subs;
      IsThrottledObject(list[i]);
    }
    var values := RetryAfters(list).value;
    DelayFromValues(subs, list, values);
    assert GetBatchRetryAfter(r.parsed.value) == Success(BatchRetryAfter(values));
  }

  /** A retry happens only for a throttled batch reply. */
  lemma ClassifyRetryOnlyIfThrottled(r: RawResponse)
    requires Classify(r).Retry?
    ensures ThrottledBatch(r)
  {
    var body := r.parsed.value;
    assert IsSuccessStatus(r.status);
    assert BatchFailedCheck(r, BodyOf(r)) == Success(true);
    assert BatchFailed(body) == Success(true);
    var subs := SubResponses(r);
    assert BatchCandidates(body) == Success(subs);
    if !AllObjects(subs) {
      MalformedSubResponseThrows(subs);
      assert false;
    }
    AnyThrottledSpec(subs);
    ThrottledListSpec(subs);
    var list := ThrottledList(subs).value;
    assert RetryAfters(list).Success?;
    forall i | 0 <= i < |subs| && Status429(subs[i].doc)
      ensures RetryAfterValue(subs[i].doc).Some?
    {
      assert subs[i] in list;
      var j :| 0 <= j < |list| && list[j] == subs[i];
      IsThrottledObject(list[j]);
    }
  }

  /** A throttled batch reply is retried after the batch delay, in
      milliseconds with 32-bit wrap-around; a wrapped negative delay makes
      `Thread.Sleep` throw. */
  lemma ClassifyThrottledRetries(r: RawResponse)
    requires ThrottledBatch(r)
    ensures exists s :: IsBatchDelay(SubResponses(r), s)
                        && Classify(r) == if SleepMillis(s) >= 0 then Retry(Some(SleepMillis(s))) else Fail(SleepOutOfRange)
  {
    var body := r.parsed.value;
    var subs := SubResponses(r);
    assert BatchCandidates(body) == Success(subs);
    AnyThrottledSpec(subs);
    assert BatchFailedCheck(r, body) == Success(true);
    GetBatchRetryAfterSpec(r);
    var s := GetBatchRetryAfter(body).value;
    WrappedThousandsNeverMinusOne(s);
    assert Classify(r) == BatchRetry(body);
    assert IsBatchDelay(subs, s);
  }

  /** A batch reply with a sub-response that is not an object fails:
      the shape check's `try` does not cover the deferred enumeration. */
  lemma ClassifyMalformedBatchFails(r: RawResponse)
    requires IsBatchReply(r) && !AllObjects(SubResponses(r))
    ensures Classify(r) == Fail(BadAccess)
  {
    var body := r.parsed.value;
    var subs := SubResponses(r);
    assert BatchCandidates(body) == Success(subs);
    MalformedSubResponseThrows(subs);
  }

  /** A 429 sub-response without an integer `Retry-After` makes the call
      fail rather than fall back to the default delay. */
  lemma ClassifyMissingRetryAfterFails(r: RawResponse, k: int)
    requires IsBatchReply(r) && AllObjects(SubResponses(r))
    requires 0 <= k < |SubResponses(r)| && Status429(SubResponses(r)[k].doc)
    requires RetryAfterValue(SubResponses(r)[k].doc).None?
    ensures Classify(r).Fail?
  {
    var body := r.parsed.value;
    var subs := SubResponses(r);
    assert BatchCandidates(body) == Success(subs);
    AnyThrottledSpec(subs);
    ThrottledListSpec(subs);
    var list := ThrottledList(subs).value;
    assert subs[k] in list;
    var j :| 0 <= j < |list| && list[j] == subs[k];
    IsThrottledObject(list[j]);
    assert !RetryAfterOf(list[j]).Success?;
    assert RetryAfters(list).Failure?;
    assert GetBatchRetryAfter(body).Failure?;
    assert BatchFailed(body) == Success(true);
    assert BatchFailedCheck(r, body) == Success(true);
    assert BatchRetry(body).Fail?;
    assert Classify(r) == BatchRetry(body);
  }

  /** A 200 JSON body that is not a batch envelope is returned as is when
      it is an object or array with a first child; an empty one, or a
      scalar, makes the shape check throw. */
  lemma ClassifyNonBatchBody(r: RawResponse)
    requires r.status == 200 && r.mediaType == Some(JsonMediaType) && !IsBatchReply(r)
    ensures var body := BodyOf(r);
            && ((body.JObj? && |body.fields| > 0) || (body.JArr? && |body.items| > 0) ==> Classify(r) == ReturnBody(body))
            && (body == JObj([]) || body == JArr([]) ==> Classify(r) == Fail(NullReference))
            && (!body.JObj? && !body.JArr? ==> Classify(r) == Fail(BadAccess))
  {
  }
}

=== FILE: json.dfy ===
/** The structured document every request and response body is read as
    (Newtonsoft's `JToken` tree), the child tokens a container enumerates,
    string-keyed indexing, `ToString()`, and the exceptions that these and
    the rest of the library can raise. */
module Json {
  import opened Wrappers
  import opened Numbers

  /** A JSON value. Objects keep their properties in document order,
      since the library looks at the first property of a batch reply.
      Numbers are integers. */
  datatype Json =
    | JNull
    | JBool(b: bool)
    | JNum(n: int)
    | JStr(s: string)
    | JArr(items: seq<Json>)
    | JObj(fields: seq<(string, Json)>)

  /** A child token as a container enumerates it: an array yields its
      elements, an object yields its properties (`JProperty`). */
  datatype Token = Item(doc: Json) | Property(name: string, val: Json)

  /** The exceptions the modelled code raises or lets escape. */
  datatype Fault =
      /** `new Exception(content)` for a response whose status is not 2xx. */
    | HttpError(content: string)
      /** A string key or `First` used on a token without such children
          (an array, a scalar or a property). */
    | BadAccess
      /** A member used on a missing token (C# `null`). */
    | NullReference
      /** A LINQ operator (`Select`, `FirstOrDefault`) given a missing
          token (C# `null`) as its source. */
    | ArgumentNull
      /** `int.Parse` on text that is not a 32-bit decimal integer. */
    | BadNumber
      /** `Thread.Sleep` given a negative timeout other than -1. */
    | SleepOutOfRange
      /** `StringContent` given a content type that is not a media type. */
    | BadMediaType
      /** The identity provider could not issue a token. */
    | AuthError(reason: string)

  /** The value of the first property named `key`. */
  function Lookup(fields: seq<(string, Json)>, key: string): Option<Json> {
    if |fields| == 0 then
      None
    else if fields[0].0 == key then
      Some(fields[0].1)
    else
      Lookup(fields[1..], key)
  }

  /** `Lookup` misses exactly when no property has the name, and
      otherwise answers with the value of the first one that does. */
  lemma {:induction false} LookupFirst(fields: seq<(string, Json)>, key: string)
    ensures Lookup(fields, key).None? <==> forall i :: 0 <= i < |fields| ==> fields[i].0 != key
    ensures Lookup(fields, key).Some? ==>
              exists i :: 0 <= i < |fields| && fields[i] == (key, Lookup(fields, key).value)
                          && forall j :: 0 <= j < i ==> fields[j].0 != key
  {
    if |fields| > 0 && fields[0].0 != key {
      var tail := fields[1..];
      LookupFirst(tail, key);
      assert forall i :: 0 < i < |fields| ==> fields[i] == tail[i - 1];
      if Lookup(tail, key).Some? {
        var i :| 0 <= i < |tail| && tail[i] == (key, Lookup(tail, key).value)
                 && forall j :: 0 <= j < i ==> tail[j].0 != key;
        assert fields[i + 1] == tail[i];
      }
    }
  }

  /** `token[key]` on a token read as a document: an object answers with
      the property (`None` standing for C# `null`), anything else throws. */
  function Index(j: Json, key: string): (r: Result<Option<Json>, Fault>)
    ensures r.Success? <==> j.JObj?
    ensures j.JObj? ==> r.value == Lookup(j.fields, key)
  {
    match j
    case JObj(fields) => Success(Lookup(fields, key))
    case _ => Failure(BadAccess)
  }

  /** `token[key]` on a child token: a property token throws too. */
  function IndexToken(t: Token, key: string): Result<Option<Json>, Fault> {
    match t
    case Item(j) => Index(j, key)
    case Property(_, _) => Failure(BadAccess)
  }

  /** The child tokens of `j`, in document order; scalars have none. */
  function Children(j: Json): (r: seq<Token>)
    ensures j.JArr? ==> |r| == |j.items| && forall i :: 0 <= i < |r| ==> r[i] == Item(j.items[i])
    ensures j.JObj? ==> |r| == |j.fields| && forall i :: 0 <= i < |r| ==> r[i] == Property(j.fields[i].0, j.fields[i].1)
    ensures !j.JArr? && !j.JObj? ==> r == []
  {
    match j
    case JArr(items) => seq(|items|, i requires 0 <= i < |items| => Item(items[i]))
    case JObj(fields) => seq(|fields|, i requires 0 <= i < |fields| => Property(fields[i].0, fields[i].1))
    case _ => []
  }

  /** `token.ToString()`. A string gives its characters, a number its
      decimal text, a boolean "True"/"False", null the empty string.
      An array or object gives indented JSON text, of which only the
      opening bracket is modelled. */
  function Text(j: Json): string {
    match j
    case JNull => ""
    case JBool(b) => if b then "True" else "False"
    case JNum(n) => IntText(n)
    case JStr(s) => s
    case JArr(_) => "["
    case JObj(_) => "{"
  }

  /** `int.TryParse(token.ToString(), out v)`. A number is read without
      printing it first; `IntOfText` shows this is the same. */
  function IntOf(j: Json): Option<int> {
    match j
    case JNum(n) => if InInt32(n) then Some(n) else None
    case _ => ParseInt32(Text(j))
  }

  /** Reading any token as an integer is parsing its text. */
  lemma IntOfText(j: Json)
    ensures IntOf(j) == ParseInt32(Text(j))
  {
    if j.JNum? {
      ParseIntText(j.n);
    }
  }

  /** A JSON string reads as the number it spells, exactly as the
      number itself does. */
  lemma IntOfNumber(n: int)
    ensures IntOf(JStr(IntText(n))) == IntOf(JNum(n))
  {
    ParseIntText(n);
  }
}

=== FILE: numbers.dfy ===
/** The .NET integer conventions the library leans on: 32-bit `int` with
    unchecked (wrapping) multiplication, `Int32.ToString()` and
    `int.Parse` / `int.TryParse` with the default `NumberStyles.Integer`
    (surrounding white space, an optional sign, decimal digits, a range
    check, and a run of NUL characters tolerated at the very end). */
module Numbers {
  import opened Wrappers

  const MinInt32: int := -0x8000_0000
  const MaxInt32: int := 0x7FFF_FFFF

  predicate InInt32(n: int) {
    MinInt32 <= n <= MaxInt32
  }

  /** Two's-complement wrap-around of an unchecked C# `int` result. */
  function Wrap32(x: int): (r: int)
    ensures InInt32(r)
    ensures (x - r) % 0x1_0000_0000 == 0
    ensures InInt32(x) ==> r == x
  {
    (x + 0x8000_0000) % 0x1_0000_0000 - 0x8000_0000
  }

  /** A wrapped product of 1000 is even, so it is never -1
      (which `Thread.Sleep` would read as "wait forever"). */
  lemma WrappedThousandsNeverMinusOne(seconds: int)
    ensures Wrap32(seconds * 1000) != -1
  {
    var r := Wrap32(seconds * 1000);
    var q := (seconds * 1000 - r) / 0x1_0000_0000;
    assert seconds * 1000 - r == q * 0x1_0000_0000;
    assert r == 2 * (seconds * 500 - q * 0x8000_0000);
  }

  predicate IsDigit(c: char) {
    '0' <= c <= '9'
  }

  /** The characters `NumberStyles.AllowLeadingWhite` and
      `AllowTrailingWhite` skip: U+0009 to U+000D and U+0020. */
  predicate IsWhite(c: char) {
    c == ' ' || '\t' <= c <= '\r'
  }

  predicate AllDigits(s: string) {
    forall i :: 0 <= i < |s| ==> IsDigit(s[i])
  }

  function DigitValue(c: char): nat
    requires IsDigit(c)
  {
    c as int - '0' as int
  }

  function DigitChar(d: nat): (c: char)
    requires d < 10
    ensures IsDigit(c) && DigitValue(c) == d
  {
    ('0' as int + d) as char
  }

  /** The value of a string of decimal digits, most significant first. */
  function DigitsValue(s: string): nat
    requires AllDigits(s)
  {
    if |s| == 0 then 0 else 10 * DigitsValue(s[..|s| - 1]) + DigitValue(s[|s| - 1])
  }

  /** `n.ToString()` for a non-negative `n`: the shortest decimal text
      that denotes `n`. */
  function DecimalString(n: nat): (s: string)
    ensures 0 < |s| && AllDigits(s)
    ensures DigitsValue(s) == n
    ensures s[0] == '0' ==> n == 0 && s == "0"
  {
    if n < 10 then
      [DigitChar(n)]
    else
      var prefix := DecimalString(n / 10);
      var s := prefix + [DigitChar(n % 10)];
      assert s[..|s| - 1] == prefix;
      s
  }

  /** `n.ToString()` for any integer. */
  function IntText(n: int): string {
    if n < 0 then "-" + DecimalString(-n) else DecimalString(n)
  }

  function TrimStart(s: string): (r: string)
    ensures |r| <= |s| && r == s[|s| - |r|..]
    ensures |r| > 0 ==> !IsWhite(r[0])
  {
    if |s| > 0 && IsWhite(s[0]) then TrimStart(s[1..]) else s
  }

  function TrimEnd(s: string): (r: string)
    ensures |r| <= |s| && r == s[..|r|]
    ensures |r| > 0 ==> !IsWhite(r[|r| - 1])
  {
    if |s| > 0 && IsWhite(s[|s| - 1]) then TrimEnd(s[..|s| - 1]) else s
  }

  /** The run of NUL characters at the end of the text, which the .NET
      number parser skips after the trailing white space. */
  function TrimTrailingNul(s: string): (r: string)
    ensures |r| <= |s| && r == s[..|r|]
    ensures forall i :: |r| <= i < |s| ==> s[i] == '\0'
    ensures |r| > 0 ==> r[|r| - 1] != '\0'
  {
    if |s| > 0 && s[|s| - 1] == '\0' then TrimTrailingNul(s[..|s| - 1]) else s
  }

  /** `int.TryParse(s, out v)`: `Some(v)` when it succeeds. `int.Parse`
      throws exactly when this is `None`. The accepted text is white space,
      an optional sign, digits, white space, then NUL characters. */
  function ParseInt32(s: string): (r: Option<int>)
    ensures r.Some? ==> InInt32(r.value)
  {
    ParseSigned(TrimEnd(TrimStart(TrimTrailingNul(s))))
  }

  /** The text left once the surroundings are trimmed: an optional sign
      and digits, in range. */
  function ParseSigned(t: string): (r: Option<int>)
    ensures r.Some? ==> InInt32(r.value)
  {
    var signed := |t| > 0 && (t[0] == '-' || t[0] == '+');
    var digits := if signed then t[1..] else t;
    if |digits| == 0 || !AllDigits(digits) then
      None
    else
      var v: int := if signed && t[0] == '-' then -(DigitsValue(digits) as int) else DigitsValue(digits);
      if InInt32(v) then Some(v) else None
  }

  /** Printing an integer and parsing the text back gives the integer
      exactly when it fits in 32 bits; otherwise the parse overflows. */
  lemma {:induction false} ParseIntText(n: int)
    ensures ParseInt32(IntText(n)) == if InInt32(n) then Some(n) else None
  {
    var s := IntText(n);
    var d := if n < 0 then DecimalString(-n) else DecimalString(n);
    assert !IsWhite(s[0]) && !IsWhite(s[|s| - 1]);
    assert s[|s| - 1] != '\0';
    assert TrimTrailingNul(s) == s;
    assert TrimStart(s) == s;
    assert TrimEnd(s) == s;
    if n < 0 {
      assert s[1..] == d;
      assert s[0] == '-';
    } else {
      assert s == d;
      assert s[0] != '-' && s[0] != '+';
    }
  }

  function Nuls(k: nat): (r: string)
    ensures |r| == k && forall i :: 0 <= i < k ==> r[i] == '\0'
  {
    seq(k, _ => '\0')
  }

  /** Appended NUL characters are exactly what the trimming removes. */
  lemma {:induction false} TrimTrailingNuls(s: string, k: nat)
    ensures TrimTrailingNul(s + Nuls(k)) == TrimTrailingNul(s)
    decreases k
  {
    var u := s + Nuls(k);
    if k == 0 {
      assert u == s;
    } else {
      assert u[|u| - 1] == '\0';
      assert u[..|u| - 1] == s + Nuls(k - 1);
      TrimTrailingNuls(s, k - 1);
    }
  }

  /** NUL characters appended to any text do not change how it parses:
      "429" followed by NULs still reads as 429. */
  lemma ParseIgnoresTrailingNuls(s: string, k: nat)
    ensures ParseInt32(s + Nuls(k)) == ParseInt32(s)
  {
    TrimTrailingNuls(s, k);
  }

  /** A printed integer followed by NULs reads back as the integer when
      it fits in 32 bits: "429" and a NUL is a 429. */
  lemma NulPaddedText(n: int, k: nat)
    ensures ParseInt32(IntText(n) + Nuls(k)) == if InInt32(n) then Some(n) else None
  {
    ParseIgnoresTrailingNuls(IntText(n), k);
    ParseIntText(n);
  }
}

=== FILE: wrappers.dfy ===
/** Option and Result, the two failure-carrying wrappers the model uses.
    `Result` is failure-compatible, so `:-` propagates an exception. */
module Wrappers {

  datatype Option<+T> = None | Some(value: T) {

    /** The carried value, or `default` when there is none. */
    function GetOr(default: T): T {
      match this
      case Some(v) => v
      case None => default
    }
  }

  datatype Result<+T, +E> = Success(value: T) | Failure(error: E) {

    predicate IsFailure() {
      Failure?
    }

    function PropagateFailure<U>(): Result<U, E>
      requires Failure?
    {
      Failure(error)
    }

    function Extract(): T
      requires Success?
    {
      value
    }
  }
}
